=== FILE: README.md ===
# AssimpSample scene: a Dafny model

AssimpSample is a small OpenGL (SharpGL/WPF) demo. A `World` draws a street scene with:

- a ground and a road;
- two buildings;
- two lampposts, each with a spot light;
- a helicopter model, which the code calls the motor bike and which it animates;
- a second model placed at a lamppost;
- a block of text.

The `MainWindow` passes the window's events to the world:

- keys move the camera, start or stop the animation, and raise the ambient light's channels;
- three combo boxes choose two scale factors and an ambient colour;
- F2 replaces the world with one built from another model file.

This project models the logic of those two classes as pure functions over immutable records. Every C# `float` field is a `real`.

| file | module | what it holds |
|---|---|---|
| `common.dfy` | `Vectors`, `Optional` | 3-vectors, `Option` |
| `ambient.dfy` | `Ambient` | the stored ambient array, the wrapping R/G/B setters, the palette table |
| `scaling.dfy` | `Scaling` | the two enum-to-factor tables and the lamppost's net scale |
| `animation.dfy` | `Animation` | `UpdateAnimation`, its invariant, and its 139-tick lap |
| `gl.dfy` | `Gl` | an interpreter for the matrix-stack commands |
| `traces.dfy` | `DrawTraces` | each draw routine's commands, and what running them does |
| `world.dfy` | `Scene` | the `World` class: constructor, `Initialize`, setters, `Draw`, tick, `Resize`, `Dispose` |
| `mainwindow.dfy` | `Window` | the key handler, the combo boxes, `Window_Loaded`, F2, and all window events together |

## The matrix-stack interpreter (`Gl`)

- The pipeline state has three matrix stacks (model-view, projection, texture), the current matrix mode, and a count of pops that were ignored because the stack held one entry.
- A matrix is kept symbolically: `Identity`, or a product of the factors multiplied in since the last load. Rotation, look-at and perspective are never evaluated numerically.
- Draw calls, texture binds and light placement are opaque tokens. The model lets them leave the matrices alone; see "## Left out" for the text renderer, which does not.
- `Renders` records what every draw call sees: the three top matrices at the moment of drawing.

Each draw routine of `World.cs` is transcribed command by command as a token list. Lemmas then state what running that list does.

## Behaviour of the code worth knowing

- **Camera ranges.** The keyboard guards test the value before stepping, so each reading can pass its guard by one step. The reachable ranges are:
  - pitch: [-10, 95];
  - yaw: [-95, 95];
  - distance: [450, 1350].
- **Animation lap.** `UpdateAnimation` resets a bike at x ≤ -30 and then steps it in the same tick. A running animation therefore never shows the start (-3, 15, 0) again: every lap begins at z = 14.7, and the lap is 139 ticks long. Only a `Draw` with the run flag off puts the bike back at the start.
- **Text projection.** `DrawText` loads the orthographic projection and pops it again before any text is drawn. The text is therefore drawn under the identity projection.
- **Texture stack.** `DrawBuildings` pushes the texture stack twice and pops it once. Until the texture stack is full, every frame leaves one more entry on it. The model keeps this imbalance as written, over an unbounded stack (see "## Left out").
- **Scene objects.** `Dispose` releases only the animated model's scene object (`m_scene`). The second object, `m_scene2`, is never released, even though F2 builds both from the same file.
- **Initial selections.** A new world holds enum value 0 (Small) in both scale fields while both factors are 1. It only becomes consistent once `Window_Loaded` selects Normal.
- **The palette.** The palette setter writes a fresh array to light 0 and leaves the world's `ambient_light` array alone. The next R/G/B key press therefore writes the stored array back, with one channel changed.
- **Draw without a timer.** `Draw` on a world whose `Initialize` never completed draws the frame and then throws at the timer. It throws before any field of the world changes. The draw handler catches nothing, and neither does the initialisation handler, whose scene loading may throw. Either exception escapes the window, and the model handles no event after it. Only F2 wraps its own `Initialize` call in a `try`.

## Model

| member | source | states |
|---|---|---|
| Ambient.Wrap | AssimpSample/World.cs:166-167 | a value at or above one is stored as zero and any other value as it is; the stored value is always below one |
| Ambient.SetChannel | AssimpSample/World.cs:161-204 | the edited channel holds the wrapped value; the other two channels and alpha keep their values |
| Ambient.SetChannelKeepsRange | AssimpSample/World.cs:164-170 | a non-negative value keeps every stored channel in [0, 1) |
| Ambient.NudgeStep | AssimpSample/World.cs:164-170 | adding 0.1 to a channel holding j/10 leaves (j+1)/10, or 0 when the sum reaches one |
| Ambient.NudgeCycle | AssimpSample/World.cs:164-170 | after n +0.1 edits, a channel that started at k/10 holds ((k+n) mod 10)/10; the other channels and alpha never move |
| Ambient.NudgeFromInitial | AssimpSample/World.cs:109 | from the initial 0.1, the edits give 0.2 … 0.9, then 0.0 on the ninth edit, then 0.1 again |
| Ambient.ColorOf | AssimpSample/World.cs:44-51 | an index names a palette member exactly when it is in 0..4 |
| Ambient.PaletteFor | AssimpSample/World.cs:328-361 | the colour written to light 0 has alpha 1 and channels in [0, 1); an index naming no member gives the array's initialiser, which equals White |
| Ambient.PaletteByIndex | AssimpSample/World.cs:334-357 | White, Yellow, Red, Green and Blue map to (0.1,0.1,0.1,1), (0.5,0.5,0,1), (0.5,0,0,1), (0,0.5,0,1) and (0,0,0.5,1) |
| Scaling.ChoiceOf | AssimpSample/World.cs:22-39 | an index names a scale member exactly when it is in 0..3, and then the member's ordinal is the index |
| Scaling.Factor | AssimpSample/World.cs:280-297 | every factor is positive |
| Scaling.FactorIncreasing | AssimpSample/World.cs:280-297 | the factors increase strictly in declaration order: Small < Normal < Double < Triple |
| Scaling.FactorByIndex | AssimpSample/World.cs:274-326 | through either setter, the values 0, 1, 2 and 3 select the factors 0.5, 1, 2 and 3 |
| Scaling.SetVertical | AssimpSample/World.cs:274-299 | the raw value is always stored; a named member sets its factor and an unnamed one keeps the old factor; the uniform fields are untouched; consistency is kept |
| Scaling.SetUniform | AssimpSample/World.cs:301-326 | the mirror image: only the uniform fields change |
| Scaling.InitialNotConsistent | AssimpSample/World.cs:136-147 | a new world's enum fields (Small) disagree with its factors (1); selecting Normal twice makes them agree |
| Scaling.LamppostNetScale | AssimpSample/World.cs:570-575 | the three scale calls compose to (50u, 50uv, 50u) |
| Scaling.VerticalOnlyStretchesY | AssimpSample/World.cs:570-575 | choosing a vertical scale keeps X and Z equal and unchanged, and sets Y to 50·u·factor |
| Scaling.UniformScalesAllAxes | AssimpSample/World.cs:570-575 | choosing a uniform scale multiplies all three axes by the factor, over the vertical stretch |
| Animation.Tick | AssimpSample/World.cs:422-444 | a bike at x ≤ -30 ends at (-3, 14.7, 0); otherwise z drops by 0.3 while z ≥ -13, and past that the rotation becomes 90 and x drops by 0.6; the third branch is unreachable |
| Animation.TickKeepsInv | AssimpSample/World.cs:422-444 | a tick keeps x in (-30.6, -3], z in [-13.3, 15], rotation 0 or 90, and rotation 90 only past z = -13 |
| Animation.TicksKeepInv | AssimpSample/World.cs:422-444 | any number of ticks keeps that invariant |
| Animation.LapStep | AssimpSample/World.cs:422-444 | each tick moves the bike one point along its lap; the tick after the lap's last point lands one step past the start |
| Animation.TicksFromStart | AssimpSample/World.cs:422-444 | from the start, the bike after n ticks is at lap point ((n-1) mod 139) + 1: a 139-tick cycle |
| Animation.NeverBackAtStart | AssimpSample/World.cs:424-433 | a running animation never returns to the start point, and it stays within the invariant |
| Gl.AspectOf | AssimpSample/World.cs:835 | the aspect ratio is a number exactly when the height is non-zero, and then ratio × height = width |
| Gl.BracketRestores | AssimpSample/World.cs:597-601 | a push, commands that only touch the top matrix, and a pop leave every stack as it was |
| DrawTraces.SingleLightRestores | AssimpSample/World.cs:591-627 | drawing one lamppost leaves every stack and the mode as it found them |
| DrawTraces.LightsScaleAsSelected | AssimpSample/World.cs:570-575 | the scale commands of DrawLights are exactly the three calls whose net scale `Scaling` computes, in the same order |
| DrawTraces.LightsRestore | AssimpSample/World.cs:565-589 | drawing both lampposts leaves every stack and the mode as it found them |
| DrawTraces.SingleBuildingRestores | AssimpSample/World.cs:674-685 | drawing one building block leaves every stack as it found it |
| DrawTraces.BuildingsEffect | AssimpSample/World.cs:629-672 | DrawBuildings restores the model-view and projection stacks but leaves the texture stack one entry deeper, holding the turned texture matrix |
| DrawTraces.ModelsRestore | AssimpSample/World.cs:734-765 | drawing the models leaves every stack and the mode as it found them |
| DrawTraces.ModelsRenders | AssimpSample/World.cs:734-765 | exactly two models are drawn, the lamppost model and then the bike; the bike is drawn at its animated position, uniform scale and rotation, under the unchanged projection and texture matrices |
| DrawTraces.SurfaceEffect | AssimpSample/World.cs:767-824 | DrawSurface restores the model-view and projection stacks and the texture stack's depth, but leaves the texture top loaded with the identity |
| DrawTraces.ResizeEffect | AssimpSample/World.cs:829-838 | Resize leaves model-view current and the identity, and the projection top the scene's perspective; no depth changes |
| DrawTraces.TextOpeningEffect | AssimpSample/World.cs:690-699 | after DrawText's opening, the orthographic projection is already popped and the projection top is the identity |
| DrawTraces.AroundMatchesResize | AssimpSample/World.cs:687-732 | whatever local commands the text block holds, DrawText ends in exactly the state Resize leaves |
| DrawTraces.TextMatchesResize | AssimpSample/World.cs:724-730 | DrawText as written ends in the state Resize leaves: perspective(60, w/h, 0.5, 20000) projection and identity model-view |
| DrawTraces.TextBlockUnderIdentity | AssimpSample/World.cs:697-724 | every line of a text block is drawn, in order, under the identity projection |
| DrawTraces.TextDrawnUnderIdentityProjection | AssimpSample/World.cs:704-722 | the ten lines of DrawText are drawn in order, all under the identity projection |
| DrawTraces.FrameEffect | AssimpSample/World.cs:519-547 | a whole frame, whatever the camera, selections and bike: model-view current and the identity, the projection the scene's perspective, and one more texture entry holding the turned texture matrix over an identity |
| DrawTraces.FrameGrowsTextureStack | AssimpSample/World.cs:519-547 | every frame keeps the model-view and projection depths and ignores no pop, but grows the texture stack by one |
| Scene.ConstructInitial | AssimpSample/World.cs:370-378 | a new world has the initial camera, the bike at the start, the animation off, no timer, an in-range ambient array and the given size |
| Scene.Initialize | AssimpSample/World.cs:395-420 | light 0 gets the stored ambient array; the timer exists (stopped) exactly when both scenes load; nothing else changes |
| Scene.SetAmbientChannel | AssimpSample/World.cs:161-204 | the channel's getter returns the wrapped value, the other getters are unchanged, light 0 holds the whole stored array, and no other field changes |
| Scene.SetAmbientColor | AssimpSample/World.cs:328-361 | light 0 gets the palette colour; the stored array and every channel getter are unchanged; only the enum field changes |
| Scene.ChannelEditDiscardsPalette | AssimpSample/World.cs:161-204 | a channel edit after a palette choice writes the stored array, with that channel changed, over the palette colour |
| Scene.SetVerticalScaling | AssimpSample/World.cs:274-299 | only the vertical selection and its factor change; unnamed values keep the factor |
| Scene.SetUniformScaling | AssimpSample/World.cs:301-326 | only the uniform selection and its factor change; unnamed values keep the factor |
| Scene.Draw | AssimpSample/World.cs:519-563 | from model-view mode, the frame leaves model-view current and the identity, the projection the perspective for the world's size, and one more texture entry holding the turned texture matrix, with every depth but the texture's and the pop count unchanged; without a timer the call throws and leaves the world alone; otherwise the timer runs if the flag is set, and if not it stops and the bike returns to the start |
| Scene.DrawStoppedResets | AssimpSample/World.cs:553-560 | a draw with the flag off puts the bike at the start, and a later tick finds the timer stopped and changes nothing |
| Scene.Tick | AssimpSample/World.cs:417-419 | the timer's tick steps the bike only while the timer runs |
| Scene.Resize | AssimpSample/World.cs:829-838 | the size is stored; model-view is left current and the identity, the projection top becomes the perspective for the new size, the texture stack and every entry below the tops are untouched, so no depth or pop count changes; light 0 is untouched |
| Scene.DrawKeepsResizeProjection | AssimpSample/World.cs:726-728 | after a resize, the next frame ends with the same projection that Resize loaded |
| Scene.Dispose | AssimpSample/World.cs:843-862 | exactly one scene object is released, the primary one; the secondary is not |
| Window.KeyDown | AssimpSample/MainWindow.xaml.cs:115-131 | V flips the run flag; every other key is a no-op while running; camera keys change only the camera, and each only its own reading (E/D the pitch, S/F the yaw, Add/Subtract the distance); a camera key moves its reading one stride exactly when that stays within the key's limit, and otherwise leaves it; I/O/P equal the channel setter applied to getter + 0.1 |
| Window.VTwice | AssimpSample/MainWindow.xaml.cs:127 | two V presses give back the starting state |
| Window.KeyKeepsBounds | AssimpSample/MainWindow.xaml.cs:120-125 | every key keeps pitch in [-10, 95], yaw in [-95, 95] and distance in [450, 1350] |
| Window.PressStep | AssimpSample/MainWindow.xaml.cs:120-125 | one press moves a camera reading one stride towards its limit, and leaves it at the limit |
| Window.PressesClamp | AssimpSample/MainWindow.xaml.cs:120-125 | from j strides short of the limit, n presses leave the reading max(j-n, 0) strides short |
| Window.CameraLimitsFromStart | AssimpSample/MainWindow.xaml.cs:120-125 | from a new world's camera, a key's reading is at its limit exactly from the 2nd (E), 19th (D, S, F) or 9th (Add, Subtract) press on |
| Window.ChannelPresses | AssimpSample/MainWindow.xaml.cs:129-131 | n presses of I, O or P nudge that one channel n times, change no other field, and leave light 0 holding the stored array |
| Window.ChannelKeyCycle | AssimpSample/MainWindow.xaml.cs:129-131 | from a new world, light 0's channel under the key runs 0.2 … 0.9 and then 0.0 on the ninth press |
| Window.LoadedDefaults | AssimpSample/MainWindow.xaml.cs:87-95 | Window_Loaded gives Normal, Normal (factors 1, now consistent) and Yellow on light 0, and leaves the stored array, camera and animation alone |
| Window.ReplaceWorld | AssimpSample/MainWindow.xaml.cs:133-151 | a cancelled dialog or a throwing constructor leaves everything, including the old world, in place; a built world releases exactly the old primary object, gets fresh object identities and the control's size, and keeps the GL matrices |
| Window.ReplacementLeaksSecondary | AssimpSample/MainWindow.xaml.cs:141-143 | replacing the world never releases the old world's secondary object |
| Window.ReplacementStartsOver | AssimpSample/MainWindow.xaml.cs:141-144 | the new world has the size it was built for and starts with the initial camera, bike and selections, the animation off, light 0 at the initial array, and a timer exactly when its scenes load |
| Window.Dispatch | AssimpSample/MainWindow.xaml.cs:62-131 | no event other than F2 changes the scene objects, and only drawing and resizing touch the matrix stacks |
| Window.DispatchInput | AssimpSample/MainWindow.xaml.cs:87-131 | each input reaches its own handler: V flips the run flag; other keys do nothing while running; a camera key makes its guarded stride; a channel key raises its channel by 0.1 with wrap-around and lights the stored array; each combo box sets its own selection or light 0's palette colour; Window_Loaded selects Normal, Normal and Yellow; no matrix changes |
| Window.DispatchControl | AssimpSample/MainWindow.xaml.cs:62-85 | initialisation lights the stored array and creates a stopped timer exactly when the scenes load; a resize stores the size and loads the perspective for it; a frame leaves its stack effect and starts or stops an existing timer by the run flag; a tick moves the bike only while the timer runs |
| Window.ChangeVerticalScale | AssimpSample/MainWindow.xaml.cs:97-101 | the vertical selection stores the index and its factor, or keeps the factor for an unnamed index; the uniform selection, the rest of the world and GL are untouched |
| Window.ChangeUniformScale | AssimpSample/MainWindow.xaml.cs:103-107 | the uniform selection stores the index and its factor, or keeps the factor for an unnamed index; the vertical selection, the rest of the world and GL are untouched |
| Window.ChangeAmbientColor | AssimpSample/MainWindow.xaml.cs:109-113 | light 0 gets the palette colour for the index; only the world's colour selection changes, and the matrices are kept |
| Window.GlReadyRecorded | AssimpSample/MainWindow.xaml.cs:72-75 | after any events, the window has been initialised through the control exactly when it was before or a GlReady arrived before any exception escaped a handler; F2 does not count |
| Window.LaterReadyIgnored | AssimpSample/MainWindow.xaml.cs:72-75 | the control raises OpenGLInitialized once, so a later GlReady changes nothing: a running timer keeps running and, while the window is handling events, the next tick still moves the bike |
| Window.OpenInv | AssimpSample/MainWindow.xaml.cs:38-53 | the window's first world satisfies the window invariant |
| Window.HandleKeepsInv | AssimpSample/MainWindow.xaml.cs:62-151 | every event keeps the window invariant: camera ranges; ambient channels in [0, 1); the bike invariant; model-view current; model-view and projection one entry deep; no ignored pop; the current scene objects distinct, issued and unreleased |
| Window.HandleAllKeepsInv | AssimpSample/MainWindow.xaml.cs:62-151 | any sequence of events keeps the window invariant |
| Window.TextureStackCountsFrames | AssimpSample/World.cs:629-672 | over any sequence of events, the texture stack grows by exactly the number of frames drawn before an exception escaped |
| Window.FramesDrawnWhileRunning | AssimpSample/MainWindow.xaml.cs:62-65 | while no exception has escaped, every Redrawn event draws one frame |
| Window.StoppedIsFinal | AssimpSample/MainWindow.xaml.cs:62-75 | once an exception has escaped a handler, no later event changes anything |
| Window.DrawWithoutTimerStops | AssimpSample/World.cs:549-556 | a draw on a world without a timer throws out of the draw handler and ends the window |

## Left out

- OpenGL semantics: lighting, texturing, culling, the font renderer and the numeric value of any matrix. Matrices are symbolic products of factors, and the calls that set no matrix are not tokens (`Clear`, `Color`, `Enable`, `Flush`, `Normal`, `TexCoord`, `Vertex`).
- The capacity of the real matrix stacks. Stacks are unbounded here, so the texture stack's growth is stated as a count and not as an overflow.
- IEEE `float` rounding. Fields are reals, so 0.1 accumulates exactly to 1.0; in binary `0.1f` it may not.
- `Ambient.NudgeCycle`: exact only over the reals, for the same reason.
- The text renderer's matrices. SharpGL's outline-font `DrawText3D` advances the model-view matrix glyph by glyph, which is why each line at World.cs:705-721 first translates back. The model treats the call as a token that leaves the matrices alone, so the model-view matrices inside the text block are not GL's. No contract reads them: the text lemmas state only the projection each line is drawn under and that the block is bracketed by a push and a pop.
- A repeated OpenGLInitialized event. The control raises it once, so the window ignores any GlReady after the first. The model does not follow what a second `Initialize` would do: create a second `DispatcherTimer` while the first one keeps firing.
- `AssimpScene` loading and drawing. The class is not part of this model. Scene objects are opaque identities, and whether `LoadScene` succeeds is a parameter of `Initialize`.
- `SetupTextures` and bitmap loading: file I/O. A failure there, which would abort `Initialize` before the lighting, is not modelled.
- `Initialize`: its other GL settings (depth test, culling, shading, light 1) are not modelled. Only the write of the stored ambient array to light 0 and the timer are kept.
- `DispatcherTimer` scheduling. A tick is an event, and it steps the bike only while the timer runs. After F2, the old world's timer keeps firing into that world; this is not modelled.
- The file dialog, message boxes, F4 (window close), the `Focus` calls and a failure of the window's own constructor: UI only.
- The finalizer and garbage collection.

=== FILE: ambient.dfy ===
/** The ambient colour of light 0 (World.cs). The world keeps its own RGBA
    array, `ambient_light`, which the R, G and B setters edit and then write
    to the light; the palette setter writes a fresh array from a fixed table
    to the light and leaves the world's array alone. */
module Ambient {
  import opened Optional

  datatype Rgba = Rgba(r: real, g: real, b: real, a: real)

  datatype Channel = R | G | B

  /** The world's array when it is created (World.cs:109). */
  const Initial := Rgba(0.1, 0.1, 0.1, 1.0)

  function Get(c: Rgba, ch: Channel): real {
    match ch
    case R => c.r
    case G => c.g
    case B => c.b
  }

  /** The setters' rule: a value at or above one is stored as zero, any
      other value as it is. */
  function Wrap(v: real): (w: real)
    ensures w < 1.0
    ensures w == v <==> v < 1.0
    ensures w != v ==> w == 0.0
  {
    if v >= 1.0 then 0.0 else v
  }

  /** The AmbientLightColorR/G/B setters: the new array the world stores
      and writes to light 0. */
  function SetChannel(c: Rgba, ch: Channel, value: real): (r: Rgba)
    ensures Get(r, ch) == Wrap(value)
    ensures forall other: Channel | other != ch :: Get(r, other) == Get(c, other)
    ensures r.a == c.a
  {
    var w := Wrap(value);
    match ch
    case R => c.(r := w)
    case G => c.(g := w)
    case B => c.(b := w)
  }

  /** Every colour channel lies in [0, 1). */
  predicate InRange(c: Rgba) {
    forall ch: Channel :: 0.0 <= Get(c, ch) < 1.0
  }

  /** A non-negative value keeps the stored array in range. */
  lemma SetChannelKeepsRange(c: Rgba, ch: Channel, value: real)
    requires InRange(c) && 0.0 <= value
    ensures InRange(SetChannel(c, ch, value))
  {
    assert 0.0 <= Wrap(value);
  }

  /** The I, O and P keys: the channel's getter plus 0.1, through its setter. */
  function Nudge(c: Rgba, ch: Channel): Rgba {
    SetChannel(c, ch, Get(c, ch) + 0.1)
  }

  function NudgeTimes(c: Rgba, ch: Channel, n: nat): Rgba
    decreases n
  {
    if n == 0 then c else Nudge(NudgeTimes(c, ch, n - 1), ch)
  }

  /** One nudge of a channel holding j / 10 gives (j + 1) / 10, or zero once
      that reaches one. */
  lemma NudgeStep(c: Rgba, ch: Channel, j: nat)
    requires j < 10 && Get(c, ch) == j as real / 10.0
    ensures Get(Nudge(c, ch), ch) == ((j + 1) % 10) as real / 10.0
  {
    assert Get(c, ch) + 0.1 == (j + 1) as real / 10.0;
    if j == 9 {
      assert Get(c, ch) + 0.1 == 1.0;
    } else {
      assert (j + 1) % 10 == j + 1;
      assert Get(c, ch) + 0.1 < 1.0;
    }
  }

  /** Counting in tenths wraps as the remainder by ten does. */
  lemma TenthsSucc(x: nat)
    ensures (x % 10 + 1) % 10 == (x + 1) % 10
  {
    var q := x / 10;
    assert x == 10 * q + x % 10;
    if x % 10 == 9 {
      assert x + 1 == 10 * (q + 1);
    } else {
      assert x + 1 == 10 * q + (x % 10 + 1);
    }
  }

  /** Nudging a channel that holds a tenth k / 10 moves it through the tenths
      and back to zero exactly when the sum reaches one: after n nudges it
      holds ((k + n) mod 10) / 10. The other channels and alpha never move. */
  lemma {:induction false} NudgeCycle(c: Rgba, ch: Channel, k: nat, n: nat)
    requires k < 10 && Get(c, ch) == k as real / 10.0
    ensures Get(NudgeTimes(c, ch, n), ch) == ((k + n) % 10) as real / 10.0
    ensures forall other: Channel | other != ch :: Get(NudgeTimes(c, ch, n), other) == Get(c, other)
    ensures NudgeTimes(c, ch, n).a == c.a
    decreases n
  {
    if n > 0 {
      NudgeCycle(c, ch, k, n - 1);
      var j := (k + n - 1) % 10;
      NudgeStep(NudgeTimes(c, ch, n - 1), ch, j);
      TenthsSucc(k + n - 1);
    }
  }

  /** From the initial 0.1, successive nudges give 0.2, ..., 0.9, then 0.0,
      then 0.1 again. */
  lemma NudgeFromInitial(ch: Channel)
    ensures forall n: nat | 1 <= n <= 8 :: Get(NudgeTimes(Initial, ch, n), ch) == (n + 1) as real / 10.0
    ensures Get(NudgeTimes(Initial, ch, 9), ch) == 0.0
    ensures Get(NudgeTimes(Initial, ch, 10), ch) == 0.1
  {
    assert Get(Initial, ch) == 1 as real / 10.0;
    forall n: nat | 1 <= n <= 8
      ensures Get(NudgeTimes(Initial, ch, n), ch) == (n + 1) as real / 10.0
    {
      NudgeCycle(Initial, ch, 1, n);
      assert (1 + n) % 10 == n + 1;
    }
    NudgeCycle(Initial, ch, 1, 9);
    assert (1 + 9) % 10 == 0;
    NudgeCycle(Initial, ch, 1, 10);
    assert (1 + 10) % 10 == 1;
  }

  /** The members of AmbientLightColor, in declaration order. */
  datatype AmbientColor = White | Yellow | Red | Green | Blue

  /** `(AmbientLightColor)index`: the member with that value, if any. */
  function ColorOf(index: int): (c: Option<AmbientColor>)
    ensures c.Some? <==> 0 <= index < 5
  {
    if index == 0 then Some(White)
    else if index == 1 then Some(Yellow)
    else if index == 2 then Some(Red)
    else if index == 3 then Some(Green)
    else if index == 4 then Some(Blue)
    else None
  }

  /** The palette setter's table (World.cs:338-356). */
  function PaletteEntry(c: AmbientColor): Rgba {
    match c
    case White => Rgba(0.1, 0.1, 0.1, 1.0)
    case Yellow => Rgba(0.5, 0.5, 0.0, 1.0)
    case Red => Rgba(0.5, 0.0, 0.0, 1.0)
    case Green => Rgba(0.0, 0.5, 0.0, 1.0)
    case Blue => Rgba(0.0, 0.0, 0.5, 1.0)
  }

  /** The fresh array the palette setter writes to light 0 for an enum value:
      the table entry, or the array's initialiser when no case matches. */
  function PaletteFor(index: int): (r: Rgba)
    ensures r.a == 1.0
    ensures InRange(r)
    ensures ColorOf(index).None? ==> r == PaletteEntry(White)
  {
    var initialiser := Rgba(0.1, 0.1, 0.1, 1.0);
    match ColorOf(index)
    case Some(c) => PaletteEntry(c)
    case None => initialiser
  }

  /** The palette, index by index, as the combo box offers it. */
  lemma PaletteByIndex()
    ensures PaletteFor(0) == Rgba(0.1, 0.1, 0.1, 1.0)
    ensures PaletteFor(1) == Rgba(0.5, 0.5, 0.0, 1.0)
    ensures PaletteFor(2) == Rgba(0.5, 0.0, 0.0, 1.0)
    ensures PaletteFor(3) == Rgba(0.0, 0.5, 0.0, 1.0)
    ensures PaletteFor(4) == Rgba(0.0, 0.0, 0.5, 1.0)
  {
  }
}

=== FILE: animation.dfy ===
/** The motor-bike animation of World.cs: a position offset (x, z) and a
    rotation about the vertical axis, advanced once per timer tick. */
module Animation {

  datatype Bike = Bike(x: real, z: real, rotation: real)

  /** The initial values (World.cs:131-133), which the tick and the draw
      routine also reset to. */
  const Start := Bike(-3.0, 15.0, 0.0)

  /** One timer tick (UpdateAnimation). A bike at or past x = -30 is first
      put back at the start; then it moves 0.3 towards negative z while
      z >= -13, and otherwise turns to 90 degrees and moves 0.6 towards
      negative x. */
  function Tick(b: Bike): (r: Bike)
    ensures b.x <= -30.0 ==> r == Bike(-3.0, 14.7, 0.0)
    ensures b.x > -30.0 && b.z >= -13.0 ==> r == b.(z := b.z - 0.3)
    ensures b.x > -30.0 && b.z < -13.0 ==> r == Bike(b.x - 0.6, b.z, 90.0)
  {
    var c := if b.x <= -30.0 then Start else b;
    if c.z >= -13.0 then c.(z := c.z - 0.3)
    else if c.z <= -13.0 then c.(rotation := 90.0, x := c.x - 0.6)
    else
      // the source's third branch: one of the comparisons above always holds
      assert false; c.(x := c.x - 0.3)
  }

  function Ticks(b: Bike, n: nat): Bike
    decreases n
  {
    if n == 0 then b else Tick(Ticks(b, n - 1))
  }

  /** The ranges the bike keeps: x in (-30.6, -3], z in [-13.3, 15], the
      rotation 0 or 90, and turned only once past z = -13. */
  predicate Inv(b: Bike) {
    && -30.6 < b.x <= -3.0
    && -13.3 <= b.z <= 15.0
    && (b.rotation == 0.0 || b.rotation == 90.0)
    && (b.rotation == 90.0 ==> b.z < -13.0)
  }

  lemma TickKeepsInv(b: Bike)
    requires Inv(b)
    ensures Inv(Tick(b))
  {
  }

  lemma {:induction false} TicksKeepInv(b: Bike, n: nat)
    requires Inv(b)
    ensures Inv(Ticks(b, n))
    decreases n
  {
    if n > 0 {
      TicksKeepInv(b, n - 1);
      TickKeepsInv(Ticks(b, n - 1));
    }
  }

  /** Ticks per lap: 94 approaching, 45 departing. */
  const Period: nat := 139

  /** Where the bike is n ticks into a lap that began at the start. */
  function LapPoint(n: nat): Bike
    requires n <= Period
  {
    if n <= 94 then Bike(-3.0, 15.0 - 0.3 * n as real, 0.0)
    else Bike(-3.0 - 0.6 * (n - 94) as real, -13.2, 90.0)
  }

  /** Each tick moves one point along the lap, and the tick after the last
      point starts the next lap one step past the start. */
  lemma LapStep(n: nat)
    requires n <= Period
    ensures Tick(LapPoint(n)) == LapPoint(if n < Period then n + 1 else 1)
  {
    if n < 94 {
      assert 15.0 - 0.3 * n as real >= -13.0;
    } else if n == 94 {
    } else if n < Period {
      assert -3.0 - 0.6 * (n - 94) as real > -30.0;
    } else {
      assert LapPoint(n).x == -30.0;
    }
  }

  /** From the start, the animation runs round the lap forever, with a
      period of 139 ticks. */
  lemma {:induction false} TicksFromStart(n: nat)
    ensures Ticks(Start, n) == LapPoint(if n == 0 then 0 else (n - 1) % Period + 1)
    decreases n
  {
    if n == 1 {
      LapStep(0);
    } else if n > 1 {
      TicksFromStart(n - 1);
      var k := (n - 2) % Period + 1;
      LapStep(k);
      if k < Period {
        assert (n - 1) % Period == k;
      } else {
        assert (n - 1) % Period == 0;
      }
    }
  }

  /** A running animation never shows the start again: the reset and the
      first step happen in the same tick, so every lap begins at z = 14.7. */
  lemma NeverBackAtStart(n: nat)
    requires n >= 1
    ensures Ticks(Start, n) != Start
    ensures Inv(Ticks(Start, n))
  {
    TicksFromStart(n);
    TicksKeepInv(Start, n);
  }
}

=== FILE: common.dfy ===
/** Three-component vectors, used for the arguments of translate, scale and
    rotate calls and for the look-at parameters. */
module Vectors {

  datatype Vec3 = Vec3(x: real, y: real, z: real)

  /** Componentwise product: the net effect of two consecutive scale calls. */
  function Mul(a: Vec3, b: Vec3): Vec3 {
    Vec3(a.x * b.x, a.y * b.y, a.z * b.z)
  }
}

/** A value that may be absent, used for casts of an integer to an enum
    member that may not exist. */
module Optional {

  datatype Option<+T> = None | Some(value: T)
}

=== FILE: gl.dfy ===
/** The part of the fixed-function pipeline the scene's draw routines drive
    through the matrix stack: three matrix stacks (model-view, projection,
    texture), the current matrix mode, and the number of pops the pipeline
    ignored because the stack held a single entry. Draw calls, texture binds
    and light placement are opaque tokens that leave the matrices alone. */
module Gl {
  import opened Vectors

  datatype MatrixMode = ModelView | Projection | Texture

  /** The aspect ratio `(double)width / height` as the source computes it. A
      zero height gives an IEEE infinity or NaN rather than a number. */
  datatype Aspect = Ratio(value: real) | NonFinite

  function AspectOf(width: int, height: int): (a: Aspect)
    ensures a.Ratio? <==> height != 0
    ensures a.Ratio? ==> a.value * height as real == width as real
  {
    if height == 0 then NonFinite else Ratio(width as real / height as real)
  }

  /** One matrix multiplied onto the current matrix. `Rotate` is the
      angle-and-axis call, `RotateEuler` the three-angle call (one rotation
      about each axis). */
  datatype Factor =
    | Translate(offset: Vec3)
    | Scale(factors: Vec3)
    | Rotate(angle: real, axis: Vec3)
    | RotateEuler(angles: Vec3)
    | LookAt(eye: Vec3, center: Vec3, up: Vec3)
    | Perspective(fovy: real, aspect: Aspect, zNear: real, zFar: real)
    | Ortho2D(left: real, right: real, bottom: real, top: real)

  /** A matrix, written as the product of the factors multiplied into it
      since it was last loaded with the identity. */
  datatype Matrix = Identity | Times(left: Matrix, right: Factor)

  /** A matrix stack. It is never empty: the bottom entry cannot be popped. */
  datatype Stack = Base(top: Matrix) | Pushed(top: Matrix, below: Stack)

  function Depth(st: Stack): nat {
    match st
    case Base(_) => 1
    case Pushed(_, below) => 1 + Depth(below)
  }

  /** Replacing the top entry keeps the depth. */
  lemma RetopKeepsDepth(st: Stack, m: Matrix)
    ensures Depth(st.(top := m)) == Depth(st)
  {
  }

  /** The texture objects of the scene, in the order of their identifiers. */
  datatype TextureSlot = Tree | Asphalt | Building | Road | Brick

  datatype Primitive =
    | Cube
    | Cylinder
    | GroundQuad
    | RoadQuad
    | Text(line: string)
    | PrimaryModel
    | SecondaryModel

  datatype Token =
    | Push
    | Pop
    | Mode(mode: MatrixMode)
    | LoadIdentity
    | Multiply(factor: Factor)
    | Bind(slot: TextureSlot)
    | SpotLight
    | Render(shape: Primitive)

  datatype State = State(mode: MatrixMode, modelView: Stack, projection: Stack, texture: Stack, underflows: nat)

  /** A fresh context: every stack holds the identity, model-view is current. */
  const Initial := State(ModelView, Base(Identity), Base(Identity), Base(Identity), 0)

  function Current(s: State): Stack {
    match s.mode
    case ModelView => s.modelView
    case Projection => s.projection
    case Texture => s.texture
  }

  function WithCurrent(s: State, st: Stack): State {
    match s.mode
    case ModelView => s.(modelView := st)
    case Projection => s.(projection := st)
    case Texture => s.(texture := st)
  }

  /** One command. A pop on a single-entry stack is ignored and counted, as
      the pipeline reports a stack underflow and leaves the stack alone. */
  function Step(s: State, t: Token): State {
    match t
    case Push => WithCurrent(s, Pushed(Current(s).top, Current(s)))
    case Pop =>
      (match Current(s)
       case Base(_) => s.(underflows := s.underflows + 1)
       case Pushed(_, below) => WithCurrent(s, below))
    case Mode(m) => s.(mode := m)
    case LoadIdentity => WithCurrent(s, Current(s).(top := Identity))
    case Multiply(f) => WithCurrent(s, Current(s).(top := Times(Current(s).top, f)))
    case Bind(_) => s
    case SpotLight => s
    case Render(_) => s
  }

  /** Runs a command list from a state. */
  function Run(s: State, ts: seq<Token>): State
    decreases |ts|
  {
    if |ts| == 0 then s else Run(Step(s, ts[0]), ts[1..])
  }

  /** Running one list after another is running their concatenation. */
  lemma {:induction false} RunAppend(s: State, a: seq<Token>, b: seq<Token>)
    ensures Run(s, a + b) == Run(Run(s, a), b)
    decreases |a|
  {
    if |a| == 0 {
      assert a + b == b;
    } else {
      assert (a + b)[0] == a[0];
      assert (a + b)[1..] == a[1..] + b;
      RunAppend(Step(s, a[0]), a[1..], b);
    }
  }

  /** The command lists of several routines, one after another. */
  function Concat(parts: seq<seq<Token>>): seq<Token>
    decreases |parts|
  {
    if |parts| == 0 then [] else parts[0] + Concat(parts[1..])
  }

  /** Running the first routine, then the rest. */
  lemma RunConcat(s: State, part: seq<Token>, rest: seq<seq<Token>>)
    ensures Run(s, Concat([part] + rest)) == Run(Run(s, part), Concat(rest))
  {
    assert ([part] + rest)[1..] == rest;
    RunAppend(s, part, Concat(rest));
  }

  /** A command that only touches the top of the current stack. */
  predicate Local(t: Token) {
    !(t.Push? || t.Pop? || t.Mode?)
  }

  /** The top of the current stack after a list of local commands. */
  function TopAfter(m: Matrix, ts: seq<Token>): Matrix
    decreases |ts|
  {
    if |ts| == 0 then m
    else
      var m' := match ts[0]
        case LoadIdentity => Identity
        case Multiply(f) => Times(m, f)
        case _ => m;
      TopAfter(m', ts[1..])
  }

  /** Local commands change nothing but the top of the current stack. */
  lemma {:induction false} RunLocal(s: State, ts: seq<Token>)
    requires forall i | 0 <= i < |ts| :: Local(ts[i])
    ensures Run(s, ts) == WithCurrent(s, Current(s).(top := TopAfter(Current(s).top, ts)))
    decreases |ts|
  {
    if |ts| == 0 {
      assert WithCurrent(s, Current(s).(top := Current(s).top)) == s;
    } else {
      var s' := Step(s, ts[0]);
      assert forall i | 0 <= i < |ts[1..]| :: Local(ts[1..][i]) by {
        forall i | 0 <= i < |ts[1..]| ensures Local(ts[1..][i]) {
          assert ts[1..][i] == ts[i + 1];
        }
      }
      RunLocal(s', ts[1..]);
    }
  }

  /** A push, then commands that only touch the top, then a pop: every
      stack is left as it was, whatever the mode. */
  lemma BracketRestores(s: State, ts: seq<Token>)
    requires forall i | 0 <= i < |ts| :: Local(ts[i])
    ensures Run(s, [Push] + ts + [Pop]) == s
  {
    var s1 := Run(s, [Push]);
    assert s1 == WithCurrent(s, Pushed(Current(s).top, Current(s)));
    RunLocal(s1, ts);
    RunAppend(s, [Push] + ts, [Pop]);
    RunAppend(s, [Push], ts);
  }

  /** What the pipeline sees when it renders a primitive. */
  datatype Snapshot = Snapshot(shape: Primitive, modelView: Matrix, projection: Matrix, texture: Matrix)

  /** The snapshots of every primitive rendered by a command list, in order. */
  function Renders(s: State, ts: seq<Token>): seq<Snapshot>
    decreases |ts|
  {
    if |ts| == 0 then []
    else
      var here := if ts[0].Render?
        then [Snapshot(ts[0].shape, s.modelView.top, s.projection.top, s.texture.top)]
        else [];
      here + Renders(Step(s, ts[0]), ts[1..])
  }

  lemma {:induction false} RendersAppend(s: State, a: seq<Token>, b: seq<Token>)
    ensures Renders(s, a + b) == Renders(s, a) + Renders(Run(s, a), b)
    decreases |a|
  {
    if |a| == 0 {
      assert a + b == b;
    } else {
      assert (a + b)[0] == a[0];
      assert (a + b)[1..] == a[1..] + b;
      RendersAppend(Step(s, a[0]), a[1..], b);
    }
  }

  /** Local commands issued in model-view mode never change the projection:
      every primitive they render sees the projection the list started with. */
  lemma {:induction false} LocalRendersKeepProjection(s: State, ts: seq<Token>)
    requires s.mode == ModelView
    requires forall i | 0 <= i < |ts| :: Local(ts[i])
    ensures forall k | 0 <= k < |Renders(s, ts)| :: Renders(s, ts)[k].projection == s.projection.top
    decreases |ts|
  {
    if |ts| > 0 {
      var s' := Step(s, ts[0]);
      assert s'.mode == ModelView && s'.projection == s.projection;
      assert forall i | 0 <= i < |ts[1..]| :: Local(ts[1..][i]) by {
        forall i | 0 <= i < |ts[1..]| ensures Local(ts[1..][i]) {
          assert ts[1..][i] == ts[i + 1];
        }
      }
      LocalRendersKeepProjection(s', ts[1..]);
    }
  }
}

=== FILE: mainwindow.dfy ===
/** The window of MainWindow.xaml.cs: the keyboard handler, the three
    combo-box handlers, the defaults chosen when the window loads, and the
    replacement of the world on F2; then every event the window passes to
    the world, and what stays true across any sequence of them. */
module Window {
  import Gl
  import Ambient
  import Scaling
  import Animation
  import Scene
  import DrawTraces

  // ---------------------------------------------------------------------
  // Keyboard (MainWindow.xaml.cs:115-131)

  /** The keys the handler gives a meaning to, F4 and F2 aside. */
  datatype Key = E | D | S | F | Add | Subtract | V | I | O | P

  /** A guarded decrease: the guard is tested on the value before the
      step, so the value can end one step below the guard. */
  function StepDown(v: real, step: real, guard: real): real {
    if v >= guard then v - step else v
  }

  /** A guarded increase, the mirror image. */
  function StepUp(v: real, step: real, guard: real): real {
    if v <= guard then v + step else v
  }

  /** A camera key's effect on the camera (120-125). */
  function MoveCamera(c: Scene.Camera, k: Key): Scene.Camera {
    match k
    case E => c.(pitch := StepDown(c.pitch, 5.0, -5.0))
    case D => c.(pitch := StepUp(c.pitch, 5.0, 90.0))
    case S => c.(yaw := StepDown(c.yaw, 5.0, -90.0))
    case F => c.(yaw := StepUp(c.yaw, 5.0, 90.0))
    case Add => c.(distance := StepDown(c.distance, 50.0, 500.0))
    case Subtract => c.(distance := StepUp(c.distance, 50.0, 1300.0))
    case _ => c
  }

  predicate IsCameraKey(k: Key) {
    k.E? || k.D? || k.S? || k.F? || k.Add? || k.Subtract?
  }

  /** The ambient channel the I, O and P keys raise. */
  function ChannelOf(k: Key): Ambient.Channel
    requires k.I? || k.O? || k.P?
  {
    match k
    case I => Ambient.R
    case O => Ambient.G
    case P => Ambient.B
  }

  /** The keyboard handler. V flips the run flag; every other key does
      nothing while the animation runs; a camera key makes its guarded step;
      I, O and P raise their channel by 0.1 through the wrapping setter. */
  function KeyDown(ss: Scene.Session, k: Key): (r: Scene.Session)
    ensures k.V? ==> r == ss.(world := ss.world.(run := !ss.world.run))
    ensures !k.V? && ss.world.run ==> r == ss
    ensures IsCameraKey(k) ==> r == ss.(world := ss.world.(camera := r.world.camera))
    ensures (k.E? || k.D?) ==> r.world.camera.yaw == ss.world.camera.yaw && r.world.camera.distance == ss.world.camera.distance
    ensures (k.S? || k.F?) ==> r.world.camera.pitch == ss.world.camera.pitch && r.world.camera.distance == ss.world.camera.distance
    ensures (k.Add? || k.Subtract?) ==> r.world.camera.pitch == ss.world.camera.pitch && r.world.camera.yaw == ss.world.camera.yaw
    ensures IsCameraKey(k) && !ss.world.run ==>
              var v := Reading(ss.world.camera, k);
              Reading(r.world.camera, k) == if WithinLimit(k, v + Stride(k)) then v + Stride(k) else v
    ensures (k.I? || k.O? || k.P?) && !ss.world.run ==>
              r == Scene.SetAmbientChannel(ss, ChannelOf(k), Scene.AmbientChannel(ss.world, ChannelOf(k)) + 0.1)
  {
    var w := ss.world;
    if k.V? then ss.(world := w.(run := !w.run))
    else if w.run then ss
    else if k.I? || k.O? || k.P? then
      var ch := ChannelOf(k);
      Scene.SetAmbientChannel(ss, ch, Scene.AmbientChannel(w, ch) + 0.1)
    else ss.(world := w.(camera := MoveCamera(w.camera, k)))
  }

  /** Two V presses give back the state they started from. */
  lemma VTwice(ss: Scene.Session)
    ensures KeyDown(KeyDown(ss, V), V) == ss
  {
  }

  /** The ranges the camera keeps: each guard plus the one step it lets
      through. */
  predicate InBounds(c: Scene.Camera) {
    && -10.0 <= c.pitch <= 95.0
    && -95.0 <= c.yaw <= 95.0
    && 450.0 <= c.distance <= 1350.0
  }

  lemma KeyKeepsBounds(ss: Scene.Session, k: Key)
    requires InBounds(ss.world.camera)
    ensures InBounds(KeyDown(ss, k).world.camera)
  {
  }

  /** The reading a camera key moves. */
  function Reading(c: Scene.Camera, k: Key): real
    requires IsCameraKey(k)
  {
    if k.E? || k.D? then c.pitch else if k.S? || k.F? then c.yaw else c.distance
  }

  /** Where repeated presses of a camera key come to rest. */
  function Limit(k: Key): real
    requires IsCameraKey(k)
  {
    match k
    case E => -10.0
    case D => 95.0
    case S => -95.0
    case F => 95.0
    case Add => 450.0
    case Subtract => 1350.0
  }

  /** One step of a camera key, signed towards its limit. */
  function Stride(k: Key): real
    requires IsCameraKey(k)
  {
    match k
    case E => -5.0
    case D => 5.0
    case S => -5.0
    case F => 5.0
    case Add => -50.0
    case Subtract => 50.0
  }

  /** Whether a camera reading lies on the near side of the key's limit. A
      press moves the reading one stride exactly when the moved reading
      stays there: each guard is the limit less one stride. */
  predicate WithinLimit(k: Key, x: real)
    requires IsCameraKey(k)
  {
    if Stride(k) < 0.0 then x >= Limit(k) else x <= Limit(k)
  }

  function Presses(ss: Scene.Session, k: Key, n: nat): Scene.Session
    decreases n
  {
    if n == 0 then ss else KeyDown(Presses(ss, k, n - 1), k)
  }

  /** A camera key moves its reading one stride towards the limit while it
      is j strides short of it, and leaves it at the limit. */
  lemma PressStep(ss: Scene.Session, k: Key, j: nat)
    requires IsCameraKey(k) && !ss.world.run
    requires Reading(ss.world.camera, k) == Limit(k) - Stride(k) * j as real
    ensures Reading(KeyDown(ss, k).world.camera, k) == Limit(k) - Stride(k) * (if j == 0 then 0 else j - 1) as real
    ensures !KeyDown(ss, k).world.run
  {
  }

  /** From a reading j strides short of the limit, n presses leave it
      max(j - n, 0) strides short: the key stops exactly at the limit, one
      step beyond its guard. */
  lemma {:induction false} PressesClamp(ss: Scene.Session, k: Key, j: nat, n: nat)
    requires IsCameraKey(k) && !ss.world.run
    requires Reading(ss.world.camera, k) == Limit(k) - Stride(k) * j as real
    ensures Reading(Presses(ss, k, n).world.camera, k) == Limit(k) - Stride(k) * (if n <= j then j - n else 0) as real
    ensures !Presses(ss, k, n).world.run
    decreases n
  {
    if n > 0 {
      PressesClamp(ss, k, j, n - 1);
      PressStep(Presses(ss, k, n - 1), k, if n - 1 <= j then j - (n - 1) else 0);
    }
  }

  /** How many presses take a new world's camera reading to the key's
      limit. */
  function PressesToLimit(k: Key): nat
    requires IsCameraKey(k)
  {
    match k
    case E => 2
    case Add => 9
    case Subtract => 9
    case _ => 19
  }

  /** From a new world's camera, a key's reading is at its limit exactly
      from its PressesToLimit-th press on: 2 presses of E, 19 of D, S or F,
      9 of Add or Subtract. */
  lemma CameraLimitsFromStart(ss: Scene.Session, k: Key, n: nat)
    requires IsCameraKey(k) && ss.world.camera == Scene.InitialCamera && !ss.world.run
    ensures Reading(Presses(ss, k, n).world.camera, k) == Limit(k) <==> n >= PressesToLimit(k)
  {
    var j := PressesToLimit(k);
    assert Reading(ss.world.camera, k) == Limit(k) - Stride(k) * j as real;
    PressesClamp(ss, k, j, n);
    assert Stride(k) != 0.0;
    if n < j {
      assert Stride(k) * (j - n) as real != 0.0;
    }
  }

  /** Pressing a channel key n times nudges that channel n times and
      leaves light 0 holding the stored array. */
  lemma {:induction false} ChannelPresses(ss: Scene.Session, k: Key, n: nat)
    requires (k.I? || k.O? || k.P?) && !ss.world.run
    ensures Presses(ss, k, n).world.ambient == Ambient.NudgeTimes(ss.world.ambient, ChannelOf(k), n)
    ensures Presses(ss, k, n).world == ss.world.(ambient := Presses(ss, k, n).world.ambient)
    ensures n > 0 ==> Presses(ss, k, n).gl.light0Ambient == Presses(ss, k, n).world.ambient
    decreases n
  {
    if n > 0 {
      ChannelPresses(ss, k, n - 1);
    }
  }

  /** After at least one press, light 0 holds the stored array nudged once
      per press. */
  lemma ChannelLight(ss: Scene.Session, k: Key, n: nat)
    requires (k.I? || k.O? || k.P?) && !ss.world.run && n > 0
    ensures Presses(ss, k, n).gl.light0Ambient == Ambient.NudgeTimes(ss.world.ambient, ChannelOf(k), n)
  {
    ChannelPresses(ss, k, n);
  }

  /** From a new world, the channel under a key runs 0.2, ..., 0.9, then
      0.0 on the ninth press; light 0 follows it. */
  lemma ChannelKeyCycle(ss: Scene.Session, k: Key)
    requires (k.I? || k.O? || k.P?) && !ss.world.run && ss.world.ambient == Ambient.Initial
    ensures forall n: nat | 1 <= n <= 8 :: Ambient.Get(Presses(ss, k, n).gl.light0Ambient, ChannelOf(k)) == (n + 1) as real / 10.0
    ensures Ambient.Get(Presses(ss, k, 9).gl.light0Ambient, ChannelOf(k)) == 0.0
  {
    var ch := ChannelOf(k);
    Ambient.NudgeFromInitial(ch);
    forall n: nat | 1 <= n <= 8
      ensures Ambient.Get(Presses(ss, k, n).gl.light0Ambient, ch) == (n + 1) as real / 10.0
    {
      ChannelLight(ss, k, n);
    }
    ChannelLight(ss, k, 9);
  }

  // ---------------------------------------------------------------------
  // Combo boxes (MainWindow.xaml.cs:87-113)

  /** The three selection handlers cast the selected index to the enum and
      pass it to the world's setter. */
  function ChangeVerticalScale(ss: Scene.Session, index: int): (r: Scene.Session)
    ensures r.gl == ss.gl
    ensures r.world == ss.world.(scales := r.world.scales)
    ensures r.world.scales.vertical == index
    ensures Scaling.ChoiceOf(index).Some? ==> r.world.scales.verticalFactor == Scaling.Factor(Scaling.ChoiceOf(index).value)
    ensures Scaling.ChoiceOf(index).None? ==> r.world.scales.verticalFactor == ss.world.scales.verticalFactor
    ensures r.world.scales.uniform == ss.world.scales.uniform && r.world.scales.uniformFactor == ss.world.scales.uniformFactor
  {
    ss.(world := Scene.SetVerticalScaling(ss.world, index))
  }

  function ChangeUniformScale(ss: Scene.Session, index: int): (r: Scene.Session)
    ensures r.gl == ss.gl
    ensures r.world == ss.world.(scales := r.world.scales)
    ensures r.world.scales.uniform == index
    ensures Scaling.ChoiceOf(index).Some? ==> r.world.scales.uniformFactor == Scaling.Factor(Scaling.ChoiceOf(index).value)
    ensures Scaling.ChoiceOf(index).None? ==> r.world.scales.uniformFactor == ss.world.scales.uniformFactor
    ensures r.world.scales.vertical == ss.world.scales.vertical && r.world.scales.verticalFactor == ss.world.scales.verticalFactor
  {
    ss.(world := Scene.SetUniformScaling(ss.world, index))
  }

  function ChangeAmbientColor(ss: Scene.Session, index: int): (r: Scene.Session)
    ensures r.gl.light0Ambient == Ambient.PaletteFor(index)
    ensures r.gl.matrices == ss.gl.matrices
    ensures r.world == ss.world.(ambientColor := index)
  {
    Scene.SetAmbientColor(ss, index)
  }

  /** Window_Loaded selects index 1 in each box, in order. */
  function WindowLoaded(ss: Scene.Session): Scene.Session {
    ChangeAmbientColor(ChangeUniformScale(ChangeVerticalScale(ss, 1), 1), 1)
  }

  /** The defaults: both scales Normal (factor 1, consistent with the enum
      fields), the palette's Yellow on light 0, and the stored ambient
      array, the camera and the animation untouched. */
  lemma LoadedDefaults(ss: Scene.Session)
    ensures var r := WindowLoaded(ss);
            && r.world.scales == Scaling.Scales(1, 1.0, 1, 1.0)
            && Scaling.Consistent(r.world.scales)
            && r.world.ambientColor == 1
            && r.gl.light0Ambient == Ambient.Rgba(0.5, 0.5, 0.0, 1.0)
            && r.world == ss.world.(scales := r.world.scales, ambientColor := 1)
            && r.gl.matrices == ss.gl.matrices
  {
  }

  // ---------------------------------------------------------------------
  // The window's life (MainWindow.xaml.cs:38-85, 133-151)

  /** The outcome of F2's file dialog and of building the new world: the
      dialog cancelled, the World constructor threw, or the world was built
      for the control's size and its Initialize did or did not load the
      scenes. */
  datatype Replacement = Cancelled | ConstructorThrew | Constructed(width: int, height: int, scenesLoad: bool)

  /** The session, the scene objects released so far, the identity the
      next scene object gets, whether the control has raised its
      OpenGLInitialized event, which it does once, and whether an exception
      has escaped a handler, after which the window handles nothing more. */
  datatype WindowState = WindowState(session: Scene.Session, released: seq<Scene.Handle>, next: nat, glReady: bool, failed: bool)

  /** The window's constructor builds the first world. */
  function Open(width: int, height: int): WindowState {
    WindowState(Scene.Session(Scene.Construct(Scene.Handle(0), Scene.Handle(1), width, height), Scene.InitialContext), [], 2, false, false)
  }

  /** F2. The new world is constructed first; only then is the old one
      disposed and replaced, and the new one initialised by a direct call,
      not through the control's event. A throwing constructor leaves the old
      world in place and undisposed. */
  function ReplaceWorld(ws: WindowState, r: Replacement): (out: WindowState)
    ensures !r.Constructed? ==> out == ws
    ensures r.Constructed? ==> out.released == ws.released + [ws.session.world.primary]
    ensures r.Constructed? ==> out.session.world.primary.id >= ws.next && out.session.world.secondary.id >= ws.next
    ensures r.Constructed? ==> out.session.gl.matrices == ws.session.gl.matrices
    ensures r.Constructed? ==> out.session.world.width == r.width && out.session.world.height == r.height
    ensures out.glReady == ws.glReady && out.failed == ws.failed
  {
    match r
    case Cancelled => ws
    case ConstructorThrew => ws
    case Constructed(width, height, scenesLoad) =>
      var incoming := Scene.Construct(Scene.Handle(ws.next), Scene.Handle(ws.next + 1), width, height);
      var released := ws.released + Scene.Dispose(ws.session.world);
      WindowState(Scene.Initialize(Scene.Session(incoming, ws.session.gl), scenesLoad), released, ws.next + 2, ws.glReady, ws.failed)
  }

  /** Only the old world's primary scene object is released: its secondary
      one, built from the same file but a separate object, is never
      released, by this replacement or any later one. */
  lemma ReplacementLeaksSecondary(ws: WindowState, r: Replacement)
    requires ws.session.world.primary != ws.session.world.secondary
    requires ws.session.world.secondary !in ws.released
    ensures ws.session.world.secondary !in ReplaceWorld(ws, r).released
  {
  }

  /** A replacement starts over: the new world's camera, animation and
      selections are the initial ones, and light 0 gets the new world's
      stored ambient array, whatever colour was chosen before. */
  lemma ReplacementStartsOver(ws: WindowState, width: int, height: int, scenesLoad: bool)
    ensures var out := ReplaceWorld(ws, Constructed(width, height, scenesLoad));
            && out.session.world.width == width && out.session.world.height == height
            && out.session.world.camera == Scene.InitialCamera
            && out.session.world.bike == Animation.Start
            && out.session.world.scales == Scaling.Initial
            && !out.session.world.run
            && out.session.gl.light0Ambient == Ambient.Initial
            && (out.session.world.timer == Scene.Stopped <==> scenesLoad)
  {
  }

  datatype Event =
    | Pressed(key: Key)
    | VerticalChosen(vertical: int)
    | UniformChosen(uniform: int)
    | ColorChosen(color: int)
    | Loaded
    | GlReady(scenesLoad: bool)
    | Resized(width: int, height: int)
    | Redrawn
    | Ticked
    | F2(replacement: Replacement)

  /** The events the user raises through the keyboard and the combo boxes,
      and Window_Loaded's selections; the others come from the GL control
      and the animation timer. */
  predicate IsInput(e: Event) {
    e.Pressed? || e.VerticalChosen? || e.UniformChosen? || e.ColorChosen? || e.Loaded?
  }

  /** The keyboard and selection handlers (87-131). Each event reaches its
      own handler: V flips the run flag, a camera key steps its reading, a
      channel key raises its channel, each combo box sets its own
      selection, and Window_Loaded picks the defaults. None of them touches
      the matrix stacks or the scene objects. */
  function DispatchInput(ss: Scene.Session, e: Event): (r: Scene.Session)
    requires IsInput(e)
    ensures r.gl.matrices == ss.gl.matrices
    ensures r.world.primary == ss.world.primary && r.world.secondary == ss.world.secondary
    ensures e.Pressed? && e.key.V? ==> r.world.run == !ss.world.run
    ensures e.Pressed? && !e.key.V? && ss.world.run ==> r == ss
    ensures e.Pressed? && IsCameraKey(e.key) && !ss.world.run ==>
              var v := Reading(ss.world.camera, e.key);
              Reading(r.world.camera, e.key) == if WithinLimit(e.key, v + Stride(e.key)) then v + Stride(e.key) else v
    ensures e.Pressed? && (e.key.I? || e.key.O? || e.key.P?) && !ss.world.run ==>
              && Scene.AmbientChannel(r.world, ChannelOf(e.key)) == Ambient.Wrap(Scene.AmbientChannel(ss.world, ChannelOf(e.key)) + 0.1)
              && r.gl.light0Ambient == r.world.ambient
    ensures e.VerticalChosen? ==> r.world.scales == Scaling.SetVertical(ss.world.scales, e.vertical)
    ensures e.UniformChosen? ==> r.world.scales == Scaling.SetUniform(ss.world.scales, e.uniform)
    ensures e.ColorChosen? ==> r.gl.light0Ambient == Ambient.PaletteFor(e.color) && r.world.ambientColor == e.color
    ensures e.Loaded? ==> r.gl.light0Ambient == Ambient.PaletteFor(1) && r.world.scales == Scaling.Scales(1, 1.0, 1, 1.0)
  {
    match e
    case Pressed(k) => KeyDown(ss, k)
    case VerticalChosen(i) => ChangeVerticalScale(ss, i)
    case UniformChosen(i) => ChangeUniformScale(ss, i)
    case ColorChosen(i) => ChangeAmbientColor(ss, i)
    case Loaded => WindowLoaded(ss)
  }

  /** The GL control's handlers (62-85) and the timer's tick, which calls
      the world directly. The initialisation lights the stored array and
      creates the timer when the scenes load, a resize stores the size and
      reloads the projection, a frame leaves its stack effect and starts or
      stops the timer, and a tick moves a running bike. None of them
      touches the scene objects. */
  function DispatchControl(ss: Scene.Session, e: Event): (r: Scene.Session)
    requires !IsInput(e) && !e.F2?
    ensures r.world.primary == ss.world.primary && r.world.secondary == ss.world.secondary
    ensures e.GlReady? || e.Ticked? ==> r.gl.matrices == ss.gl.matrices
    ensures e.GlReady? ==> r.gl.light0Ambient == ss.world.ambient
    ensures e.GlReady? ==> r.world == if e.scenesLoad then ss.world.(timer := Scene.Stopped) else ss.world
    ensures e.Resized? ==> r.world == ss.world.(width := e.width, height := e.height)
    ensures e.Resized? ==> r.gl.matrices.projection.top == Gl.Times(Gl.Identity, DrawTraces.ViewProjection(e.width, e.height))
    ensures e.Redrawn? && ss.gl.matrices.mode == Gl.ModelView ==>
              Scene.FrameLeft(ss.gl.matrices, r.gl.matrices, ss.world.width, ss.world.height)
    ensures e.Redrawn? && ss.world.timer != Scene.Absent ==> r.world.timer == (if ss.world.run then Scene.Running else Scene.Stopped)
    ensures e.Ticked? ==> r.gl == ss.gl
    ensures e.Ticked? && ss.world.timer == Scene.Running ==> r.world == ss.world.(bike := Animation.Tick(ss.world.bike))
    ensures e.Ticked? && ss.world.timer != Scene.Running ==> r.world == ss.world
  {
    match e
    case GlReady(ok) => Scene.Initialize(ss, ok)
    case Resized(w, h) => Scene.Resize(ss, w, h)
    case Redrawn => Scene.Draw(ss).session
    case Ticked => ss.(world := Scene.Tick(ss.world))
  }

  /** An event other than F2, passed to the world as the handlers do. Only
      F2 changes the scene objects, and only drawing and resizing touch the
      matrix stacks. */
  function Dispatch(ss: Scene.Session, e: Event): (r: Scene.Session)
    requires !e.F2?
    ensures r.world.primary == ss.world.primary && r.world.secondary == ss.world.secondary
    ensures !(e.Resized? || e.Redrawn?) ==> r.gl.matrices == ss.gl.matrices
  {
    if IsInput(e) then DispatchInput(ss, e) else DispatchControl(ss, e)
  }

  /** Whether the world's handler for an event throws: a draw on a world
      without a timer (World.cs:549-556), or an initialisation whose scene
      loading fails (World.cs:412-415). The draw and initialisation
      handlers (62-75) catch nothing, so the exception escapes the window;
      only F2's own Initialize call is inside a try. */
  predicate Escapes(ss: Scene.Session, e: Event) {
    match e
    case Redrawn => Scene.Draw(ss).threw
    case GlReady(scenesLoad) => !scenesLoad
    case _ => false
  }

  /** One event: F2 replaces the world, any other goes to it. The control
      raises OpenGLInitialized once (72-75), so a GlReady after the first
      is not an event the window can receive and changes nothing. Once an
      exception has escaped a handler, no event is handled any more. */
  function Handle(ws: WindowState, e: Event): WindowState {
    if ws.failed then ws
    else if e.F2? then ReplaceWorld(ws, e.replacement)
    else if e.GlReady? && ws.glReady then ws
    else ws.(session := Dispatch(ws.session, e), glReady := ws.glReady || e.GlReady?, failed := Escapes(ws.session, e))
  }

  function HandleAll(ws: WindowState, es: seq<Event>): WindowState
    decreases |es|
  {
    if |es| == 0 then ws else HandleAll(Handle(ws, es[0]), es[1..])
  }

  /** A handled prefix: running the events one at a time. */
  lemma HandlePrefix(ws: WindowState, es: seq<Event>, i: nat)
    requires 0 <= i < |es|
    ensures HandleAll(ws, es[..i + 1]) == HandleAll(Handle(ws, es[0]), es[1..][..i])
  {
    assert es[..i + 1][0] == es[0];
    assert es[..i + 1][1..] == es[1..][..i];
  }

  /** Once an exception has escaped, the window stays as it was, whatever
      events follow. */
  lemma {:induction false} StoppedIsFinal(ws: WindowState, es: seq<Event>)
    requires ws.failed
    ensures HandleAll(ws, es) == ws
    decreases |es|
  {
    if |es| > 0 {
      StoppedIsFinal(ws, es[1..]);
    }
  }

  /** A draw on a world that has no timer ends the window: its exception
      escapes, and no later event has any effect. */
  lemma DrawWithoutTimerStops(ws: WindowState, es: seq<Event>)
    requires !ws.failed && ws.session.world.timer == Scene.Absent
    ensures Handle(ws, Redrawn).failed
    ensures HandleAll(Handle(ws, Redrawn), es) == Handle(ws, Redrawn)
  {
    StoppedIsFinal(Handle(ws, Redrawn), es);
  }

  /** The flag records whether a GlReady has been handled: it is set by the
      first GlReady received before any exception escaped, and F2 leaves it
      as it was. */
  lemma {:induction false} GlReadyRecorded(ws: WindowState, es: seq<Event>)
    ensures HandleAll(ws, es).glReady <==>
              ws.glReady || exists i | 0 <= i < |es| :: es[i].GlReady? && !HandleAll(ws, es[..i]).failed
    decreases |es|
  {
    if |es| > 0 {
      var w1, rest := Handle(ws, es[0]), es[1..];
      GlReadyRecorded(w1, rest);
      assert es[..0] == [];
      assert w1.glReady <==> ws.glReady || (es[0].GlReady? && !ws.failed);
      if HandleAll(ws, es).glReady && !ws.glReady {
        if w1.glReady {
          assert es[0].GlReady? && !HandleAll(ws, es[..0]).failed;
        } else {
          var j :| 0 <= j < |rest| && rest[j].GlReady? && !HandleAll(w1, rest[..j]).failed;
          HandlePrefix(ws, es, j);
          assert es[j + 1].GlReady? && !HandleAll(ws, es[..j + 1]).failed;
        }
      }
      if exists i | 0 <= i < |es| :: es[i].GlReady? && !HandleAll(ws, es[..i]).failed {
        var i :| 0 <= i < |es| && es[i].GlReady? && !HandleAll(ws, es[..i]).failed;
        if i > 0 {
          HandlePrefix(ws, es, i - 1);
          assert rest[i - 1].GlReady? && !HandleAll(w1, rest[..i - 1]).failed;
        }
      }
    }
  }

  /** Once the world is initialised, the window initialises it no more
      through the control. The first clause records that modelling choice
      for a repeated GlReady, which the control never raises; the second is
      its consequence: a running timer keeps running, so later ticks still
      move the bike while the window is handling events. */
  lemma LaterReadyIgnored(ws: WindowState, scenesLoad: bool)
    requires ws.glReady
    ensures Handle(ws, GlReady(scenesLoad)) == ws
    ensures ws.session.world.timer == Scene.Running && !ws.failed ==>
              Handle(Handle(ws, GlReady(scenesLoad)), Ticked).session.world.bike == Animation.Tick(ws.session.world.bike)
  {
  }

  /** What holds of a session at every point: the camera within its
      ranges, the stored ambient channels in [0, 1), the bike within its
      animation ranges; model-view current, the model-view and projection
      stacks one entry deep, no pop ignored; the two scene objects
      distinct. */
  predicate SessionInv(ss: Scene.Session) {
    var w := ss.world;
    var m := ss.gl.matrices;
    && InBounds(w.camera)
    && Ambient.InRange(w.ambient)
    && Animation.Inv(w.bike)
    && m.mode == Gl.ModelView
    && Gl.Depth(m.modelView) == 1
    && Gl.Depth(m.projection) == 1
    && m.underflows == 0
    && w.primary != w.secondary
  }

  /** The current world's scene objects were issued and never released. */
  predicate Owned(ws: WindowState) {
    var w := ws.session.world;
    && w.primary.id < ws.next && w.secondary.id < ws.next
    && (forall h | h in ws.released :: h.id < ws.next)
    && w.primary !in ws.released && w.secondary !in ws.released
  }

  predicate WindowInv(ws: WindowState) {
    SessionInv(ws.session) && Owned(ws)
  }

  lemma InitialInRange()
    ensures Ambient.InRange(Ambient.Initial)
  {
    forall ch: Ambient.Channel ensures 0.0 <= Ambient.Get(Ambient.Initial, ch) < 1.0 { }
  }

  lemma OpenInv(width: int, height: int)
    ensures WindowInv(Open(width, height))
  {
    InitialInRange();
  }

  lemma KeyKeepsInv(ss: Scene.Session, k: Key)
    requires SessionInv(ss)
    ensures SessionInv(KeyDown(ss, k))
  {
    KeyKeepsBounds(ss, k);
    if (k.I? || k.O? || k.P?) && !ss.world.run {
      Ambient.SetChannelKeepsRange(ss.world.ambient, ChannelOf(k), Scene.AmbientChannel(ss.world, ChannelOf(k)) + 0.1);
    }
  }

  lemma ResizeKeepsInv(ss: Scene.Session, width: int, height: int)
    requires SessionInv(ss)
    ensures SessionInv(Scene.Resize(ss, width, height))
  {
  }

  lemma DrawKeepsInv(ss: Scene.Session)
    requires SessionInv(ss)
    ensures SessionInv(Scene.Draw(ss).session)
  {
  }

  lemma TickKeepsSessionInv(ss: Scene.Session)
    requires SessionInv(ss)
    ensures SessionInv(ss.(world := Scene.Tick(ss.world)))
  {
    Animation.TickKeepsInv(ss.world.bike);
  }

  lemma DispatchKeepsInv(ss: Scene.Session, e: Event)
    requires SessionInv(ss) && !e.F2?
    ensures SessionInv(Dispatch(ss, e))
  {
    match e
    case Pressed(k) => KeyKeepsInv(ss, k);
    case Resized(w, h) => ResizeKeepsInv(ss, w, h);
    case Redrawn => DrawKeepsInv(ss);
    case Ticked => TickKeepsSessionInv(ss);
    case _ =>
  }

  lemma ReplaceKeepsInv(ws: WindowState, r: Replacement)
    requires WindowInv(ws)
    ensures WindowInv(ReplaceWorld(ws, r))
  {
    if r.Constructed? {
      InitialInRange();
    }
  }

  lemma HandleKeepsInv(ws: WindowState, e: Event)
    requires WindowInv(ws)
    ensures WindowInv(Handle(ws, e))
  {
    if e.F2? {
      ReplaceKeepsInv(ws, e.replacement);
    } else {
      DispatchKeepsInv(ws.session, e);
    }
  }

  lemma {:induction false} HandleAllKeepsInv(ws: WindowState, es: seq<Event>)
    requires WindowInv(ws)
    ensures WindowInv(HandleAll(ws, es))
    decreases |es|
  {
    if |es| > 0 {
      HandleKeepsInv(ws, es[0]);
      HandleAllKeepsInv(Handle(ws, es[0]), es[1..]);
    }
  }

  function FramesIn(es: seq<Event>): nat
    decreases |es|
  {
    if |es| == 0 then 0 else (if es[0].Redrawn? then 1 else 0) + FramesIn(es[1..])
  }

  /** The frames the window draws: the Redrawn events it handles before an
      exception escapes. A draw that throws has drawn its frame first. */
  function FramesDrawn(ws: WindowState, es: seq<Event>): nat
    decreases |es|
  {
    if |es| == 0 || ws.failed then 0
    else (if es[0].Redrawn? then 1 else 0) + FramesDrawn(Handle(ws, es[0]), es[1..])
  }

  /** While no exception escapes, every Redrawn event draws a frame. */
  lemma {:induction false} FramesDrawnWhileRunning(ws: WindowState, es: seq<Event>)
    requires !HandleAll(ws, es).failed
    ensures FramesDrawn(ws, es) == FramesIn(es)
    decreases |es|
  {
    if |es| > 0 {
      if ws.failed {
        StoppedIsFinal(ws, es);
      }
      FramesDrawnWhileRunning(Handle(ws, es[0]), es[1..]);
    }
  }

  /** A frame pushes one texture matrix; no other event touches the texture
      stack, and nothing happens once an exception has escaped. */
  lemma HandleTextureDepth(ws: WindowState, e: Event)
    requires ws.session.gl.matrices.mode == Gl.ModelView
    ensures Gl.Depth(Handle(ws, e).session.gl.matrices.texture) == Gl.Depth(ws.session.gl.matrices.texture) + (if e.Redrawn? && !ws.failed then 1 else 0)
  {
  }

  /** The texture stack grows by exactly one entry per frame drawn, whatever
      else happens in between: nothing else in the window pushes or pops
      it. */
  lemma {:induction false} TextureStackCountsFrames(ws: WindowState, es: seq<Event>)
    requires WindowInv(ws)
    ensures Gl.Depth(HandleAll(ws, es).session.gl.matrices.texture) == Gl.Depth(ws.session.gl.matrices.texture) + FramesDrawn(ws, es)
    decreases |es|
  {
    if |es| > 0 {
      HandleTextureDepth(ws, es[0]);
      HandleKeepsInv(ws, es[0]);
      TextureStackCountsFrames(Handle(ws, es[0]), es[1..]);
    }
  }
}

=== FILE: scaling.dfy ===
/** The two scale selections of World.cs: the lamppost's vertical stretch
    and the uniform scale shared by the lampposts and the motor bike. */
module Scaling {
  import opened Vectors
  import opened Optional

  /** The members shared by the VerticalScaling and UniformScaling enums, in
      declaration order; both setters map them through the same table. */
  datatype ScaleChoice = Small | Normal | Double | Triple

  function Ordinal(c: ScaleChoice): nat {
    match c
    case Small => 0
    case Normal => 1
    case Double => 2
    case Triple => 3
  }

  /** `(VerticalScaling)index` or `(UniformScaling)index`: the member with
      that value, if any. */
  function ChoiceOf(index: int): (c: Option<ScaleChoice>)
    ensures c.Some? <==> 0 <= index < 4
    ensures c.Some? ==> Ordinal(c.value) == index
  {
    if index == 0 then Some(Small)
    else if index == 1 then Some(Normal)
    else if index == 2 then Some(Double)
    else if index == 3 then Some(Triple)
    else None
  }

  /** The factor each member selects (World.cs:282-296 and 309-323). */
  function Factor(c: ScaleChoice): (f: real)
    ensures f > 0.0
  {
    match c
    case Small => 0.5
    case Normal => 1.0
    case Double => 2.0
    case Triple => 3.0
  }

  /** The table is strictly increasing in declaration order. */
  lemma FactorIncreasing(a: ScaleChoice, b: ScaleChoice)
    requires Ordinal(a) < Ordinal(b)
    ensures Factor(a) < Factor(b)
  {
  }

  /** The selected enum values (raw, as the casts store them) and the two
      factors the draw routines read. */
  datatype Scales = Scales(vertical: int, verticalFactor: real, uniform: int, uniformFactor: real)

  /** A new world: both enum fields hold 0 (Small) while both factors are 1
      (World.cs:136-147). */
  const Initial := Scales(0, 1.0, 0, 1.0)

  /** A selection is in step with its factor when it names a member. */
  predicate Consistent(s: Scales) {
    && (ChoiceOf(s.vertical).Some? ==> s.verticalFactor == Factor(ChoiceOf(s.vertical).value))
    && (ChoiceOf(s.uniform).Some? ==> s.uniformFactor == Factor(ChoiceOf(s.uniform).value))
  }

  /** LamppostVerticalScaling's setter: it always stores the value and, when
      the value names a member, the member's factor. The uniform fields are
      not touched. */
  function SetVertical(s: Scales, index: int): (r: Scales)
    ensures r.vertical == index
    ensures r.uniform == s.uniform && r.uniformFactor == s.uniformFactor
    ensures ChoiceOf(index).None? ==> r.verticalFactor == s.verticalFactor
    ensures Consistent(s) ==> Consistent(r)
    ensures ChoiceOf(index).Some? ==> r.verticalFactor == Factor(ChoiceOf(index).value)
  {
    match ChoiceOf(index)
    case Some(c) => s.(vertical := index, verticalFactor := Factor(c))
    case None => s.(vertical := index)
  }

  /** MotorBikeAndLamppostUniformScaling's setter, the mirror image. */
  function SetUniform(s: Scales, index: int): (r: Scales)
    ensures r.uniform == index
    ensures r.vertical == s.vertical && r.verticalFactor == s.verticalFactor
    ensures ChoiceOf(index).None? ==> r.uniformFactor == s.uniformFactor
    ensures Consistent(s) ==> Consistent(r)
    ensures ChoiceOf(index).Some? ==> r.uniformFactor == Factor(ChoiceOf(index).value)
  {
    match ChoiceOf(index)
    case Some(c) => s.(uniform := index, uniformFactor := Factor(c))
    case None => s.(uniform := index)
  }

  /** Both tables, reached through the setters as the combo boxes reach
      them: the values 0, 1, 2 and 3 select the factors 0.5, 1, 2 and 3,
      for the vertical and for the uniform selection alike. */
  lemma FactorByIndex(s: Scales)
    ensures SetVertical(s, 0).verticalFactor == 0.5 && SetUniform(s, 0).uniformFactor == 0.5
    ensures SetVertical(s, 1).verticalFactor == 1.0 && SetUniform(s, 1).uniformFactor == 1.0
    ensures SetVertical(s, 2).verticalFactor == 2.0 && SetUniform(s, 2).uniformFactor == 2.0
    ensures SetVertical(s, 3).verticalFactor == 3.0 && SetUniform(s, 3).uniformFactor == 3.0
  {
  }

  /** The enum fields and the factors of a new world disagree: Small is
      selected while the factors are 1. */
  lemma InitialNotConsistent()
    ensures !Consistent(Initial)
    ensures Consistent(SetUniform(SetVertical(Initial, 1), 1))
  {
  }

  /** The three scale calls DrawLights issues, in order: uniform, vertical,
      and the fixed base scale (World.cs:570-575). */
  function LamppostScaleCalls(s: Scales): seq<Vec3> {
    var u := s.uniformFactor;
    [Vec3(u, u, u), Vec3(1.0, s.verticalFactor, 1.0), Vec3(50.0, 50.0, 50.0)]
  }

  /** The net scale of consecutive scale calls. */
  function NetScale(calls: seq<Vec3>): Vec3
    decreases |calls|
  {
    if |calls| == 0 then Vec3(1.0, 1.0, 1.0) else Mul(NetScale(calls[..|calls| - 1]), calls[|calls| - 1])
  }

  /** The lamppost's net scale is (50u, 50uv, 50u). */
  lemma LamppostNetScale(s: Scales)
    ensures NetScale(LamppostScaleCalls(s)) == Vec3(50.0 * s.uniformFactor, 50.0 * s.uniformFactor * s.verticalFactor, 50.0 * s.uniformFactor)
  {
    var calls := LamppostScaleCalls(s);
    var u, v := s.uniformFactor, s.verticalFactor;
    assert calls[..2][..1] == calls[..1] && calls[..1][..0] == [];
    assert NetScale(calls[..1]) == Vec3(u, u, u);
    assert NetScale(calls[..2]) == Vec3(u, u * v, u);
    assert NetScale(calls) == Mul(Vec3(u, u * v, u), Vec3(50.0, 50.0, 50.0));
  }

  /** Choosing a vertical scale changes only the Y extent of a lamppost:
      its X and Z stay equal to each other and to what they were. */
  lemma VerticalOnlyStretchesY(s: Scales, index: int)
    ensures var before := NetScale(LamppostScaleCalls(s));
            var after := NetScale(LamppostScaleCalls(SetVertical(s, index)));
            after.x == before.x && after.z == before.z && after.x == after.z
    ensures ChoiceOf(index).Some? ==>
              NetScale(LamppostScaleCalls(SetVertical(s, index))).y == 50.0 * s.uniformFactor * Factor(ChoiceOf(index).value)
  {
    LamppostNetScale(s);
    LamppostNetScale(SetVertical(s, index));
  }

  /** Choosing a uniform scale multiplies all three axes of a lamppost by
      the chosen factor, on top of the vertical stretch. */
  lemma UniformScalesAllAxes(s: Scales, index: int)
    requires ChoiceOf(index).Some?
    ensures var n := NetScale(LamppostScaleCalls(SetUniform(s, index)));
            var f := Factor(ChoiceOf(index).value);
            n == Vec3(50.0 * f, 50.0 * f * s.verticalFactor, 50.0 * f)
  {
    LamppostNetScale(SetUniform(s, index));
  }
}

=== FILE: traces.dfy ===
/** The matrix-stack commands each draw routine of World.cs issues, as token
    lists for the interpreter in module Gl, and what running them does to the
    three stacks. Each routine is written as the concatenation of short
    pieces, one per group of consecutive source statements. */
module DrawTraces {
  import opened Vectors
  import opened Gl
  import Animation
  import Scaling

  // ---------------------------------------------------------------------
  // DrawSingleLight (World.cs:591-627)

  /** The pole: a stretched cube between a push and a pop (597-601). */
  function Pole(): seq<Token> {
    [Push, Multiply(Scale(Vec3(0.1, 5.0, 0.1))), Render(Cube), Pop]
  }

  /** The arm: a translation, then a flattened cube between a push and a
      pop (603-609). */
  function Arm(): seq<Token> {
    [Multiply(Translate(Vec3(0.5, 4.92, 0.0))), Push, Multiply(Scale(Vec3(0.5, 0.1, 0.1))), Render(Cube), Pop]
  }

  /** The lamp: light 1 is placed, then the cylinder is drawn, all on the
      matrix the arm left (611-624). */
  function Lamp(): seq<Token> {
    [ Multiply(Translate(Vec3(0.4, -0.5, 0.0))), SpotLight,
      Multiply(Scale(Vec3(0.3, 0.5, 0.3))), Multiply(RotateEuler(Vec3(90.0, 180.0, 0.0))), Render(Cylinder) ]
  }

  function SingleLight(): seq<Token> {
    [Push, Bind(Tree)] + Pole() + Arm() + Lamp() + [Pop]
  }

  lemma PoleRestores(s: State)
    ensures Run(s, Pole()) == s
  {
    var inner := [Multiply(Scale(Vec3(0.1, 5.0, 0.1))), Render(Cube)];
    assert Pole() == [Push] + inner + [Pop];
    BracketRestores(s, inner);
  }

  lemma ArmEffect(s: State)
    requires s.mode == ModelView
    ensures Run(s, Arm()) == s.(modelView := s.modelView.(top := Times(s.modelView.top, Translate(Vec3(0.5, 4.92, 0.0)))))
  {
    var a := [Multiply(Translate(Vec3(0.5, 4.92, 0.0)))];
    var inner := [Multiply(Scale(Vec3(0.5, 0.1, 0.1))), Render(Cube)];
    assert Arm() == a + ([Push] + inner + [Pop]);
    RunAppend(s, a, [Push] + inner + [Pop]);
    BracketRestores(Run(s, a), inner);
  }

  lemma LampEffect(s: State)
    requires s.mode == ModelView
    ensures Run(s, Lamp()) == s.(modelView := s.modelView.(top := TopAfter(s.modelView.top, Lamp())))
  {
    RunLocal(s, Lamp());
  }

  /** Drawing one lamppost leaves every stack as it found it. */
  lemma SingleLightRestores(s: State)
    requires s.mode == ModelView
    ensures Run(s, SingleLight()) == s
  {
    var a := [Push, Bind(Tree)];
    var s1 := Run(s, a);
    assert s1 == s.(modelView := Pushed(s.modelView.top, s.modelView));
    PoleRestores(s1);
    ArmEffect(s1);
    var s2 := Run(s1, Arm());
    LampEffect(s2);
    var s3 := Run(s2, Lamp());
    assert s3.modelView.below == s.modelView && s3.mode == ModelView;
    assert Run(s3, [Pop]) == s;
    RunAppend(s, a + Pole() + Arm() + Lamp(), [Pop]);
    RunAppend(s, a + Pole() + Arm(), Lamp());
    RunAppend(s, a + Pole(), Arm());
    RunAppend(s, a, Pole());
  }

  // ---------------------------------------------------------------------
  // DrawLights (World.cs:565-589)

  /** The three scale calls and the move to the first lamppost (570-577). */
  function LampBase(sc: Scaling.Scales): seq<Token> {
    var u, v := sc.uniformFactor, sc.verticalFactor;
    [ Multiply(Scale(Vec3(u, u, u))), Multiply(Scale(Vec3(1.0, v, 1.0))),
      Multiply(Scale(Vec3(50.0, 50.0, 50.0))), Multiply(Translate(Vec3(-5.0, 3.0, 0.0))) ]
  }

  /** The move to the second lamppost, turned to face the first (581-583). */
  function SecondLampPlace(): seq<Token> {
    [Multiply(Translate(Vec3(10.0, 0.0, 0.0))), Multiply(RotateEuler(Vec3(0.0, 180.0, 0.0)))]
  }

  function Lights(sc: Scaling.Scales): seq<Token> {
    [Push] + LampBase(sc) + SingleLight() + SecondLampPlace() + SingleLight() + [Pop]
  }

  /** The scale commands DrawLights issues are the three scale calls whose
      net effect module Scaling computes, in the same order. */
  lemma LightsScaleAsSelected(sc: Scaling.Scales)
    ensures |Lights(sc)| > 4
    ensures forall i | 0 <= i < 3 :: Lights(sc)[1 + i] == Multiply(Scale(Scaling.LamppostScaleCalls(sc)[i]))
  {
    assert Lights(sc)[..5] == [Push] + LampBase(sc);
  }

  /** A lamppost drawn after local moves: only the moves stay on the
      model-view matrix. */
  lemma PlacedLightEffect(s: State, place: seq<Token>)
    requires s.mode == ModelView
    requires forall i | 0 <= i < |place| :: Local(place[i])
    ensures Run(s, place + SingleLight()) == s.(modelView := s.modelView.(top := TopAfter(s.modelView.top, place)))
  {
    RunLocal(s, place);
    SingleLightRestores(Run(s, place));
    RunAppend(s, place, SingleLight());
  }

  /** Between DrawLights' push and pop, only the top of the model-view
      stack changes. */
  lemma LightsInnerEffect(s: State, sc: Scaling.Scales)
    requires s.mode == ModelView
    ensures var m := TopAfter(TopAfter(s.modelView.top, LampBase(sc)), SecondLampPlace());
            Run(s, LampBase(sc) + SingleLight() + SecondLampPlace() + SingleLight()) == s.(modelView := s.modelView.(top := m))
  {
    var first := LampBase(sc) + SingleLight();
    var second := SecondLampPlace() + SingleLight();
    assert LampBase(sc) + SingleLight() + SecondLampPlace() + SingleLight() == first + second;
    PlacedLightEffect(s, LampBase(sc));
    PlacedLightEffect(Run(s, first), SecondLampPlace());
    RunAppend(s, first, second);
  }

  /** Drawing both lampposts leaves every stack as it found it. */
  lemma LightsRestore(s: State, sc: Scaling.Scales)
    requires s.mode == ModelView
    ensures Run(s, Lights(sc)) == s
  {
    var inner := LampBase(sc) + SingleLight() + SecondLampPlace() + SingleLight();
    assert Lights(sc) == [Push] + inner + [Pop];
    var s1 := Run(s, [Push]);
    assert s1 == s.(modelView := Pushed(s.modelView.top, s.modelView));
    LightsInnerEffect(s1, sc);
    var s2 := Run(s1, inner);
    assert s2.modelView.below == s.modelView;
    RunAppend(s, [Push] + inner, [Pop]);
    RunAppend(s, [Push], inner);
  }

  // ---------------------------------------------------------------------
  // DrawSingleBuilding (World.cs:674-685) and DrawBuildings (629-672)

  function SingleBuilding(): seq<Token> {
    [Push, Multiply(Scale(Vec3(3.0, 12.0, 8.0))), Render(Cube), Pop]
  }

  lemma SingleBuildingRestores(s: State)
    ensures Run(s, SingleBuilding()) == s
  {
    var inner := [Multiply(Scale(Vec3(3.0, 12.0, 8.0))), Render(Cube)];
    assert SingleBuilding() == [Push] + inner + [Pop];
    BracketRestores(s, inner);
  }

  /** A push on the texture stack with one factor multiplied onto the
      copy, bracketed by the two mode switches (635-639 and 655-658). */
  function TexturePush(f: Factor): seq<Token> {
    [Mode(Texture), Push] + [Multiply(f)] + [Mode(ModelView)]
  }

  lemma TexturePushEffect(s: State, f: Factor)
    requires s.mode == ModelView
    ensures Run(s, TexturePush(f)) == s.(texture := Pushed(Times(s.texture.top, f), s.texture))
  {
    var a := [Mode(Texture), Push];
    RunAppend(s, a + [Multiply(f)], [Mode(ModelView)]);
    RunAppend(s, a, [Multiply(f)]);
  }

  /** The rotation the side facades' texture is drawn with (637). */
  const FacadeTextureTurn := RotateEuler(Vec3(0.0, 0.0, -90.0))

  /** The side facades: scaled, moved to the first, drawn, moved to the
      second, drawn; then the brick texture is bound (641-652). */
  function SideFacades(): seq<Token> {
    [Multiply(Scale(Vec3(50.0, 50.0, 50.0))), Multiply(Translate(Vec3(-10.0, 10.1, 0.0)))]
    + SingleBuilding() + [Multiply(Translate(Vec3(20.0, 0.0, 0.0)))] + SingleBuilding() + [Bind(Brick)]
  }

  /** The front facade: moved, turned and stretched, then drawn (660-664). */
  function FrontFacade(): seq<Token> {
    [Multiply(Translate(Vec3(-10.0, 0.0, -21.0))), Multiply(RotateEuler(Vec3(0.0, 90.0, 0.0))), Multiply(Scale(Vec3(1.0, 1.0, 4.0)))]
    + SingleBuilding()
  }

  /** One texture-stack pop and the model-view pop (666-671). */
  function BuildingsClose(): seq<Token> {
    [Mode(Texture), Pop, Mode(ModelView), Pop]
  }

  function Buildings(): seq<Token> {
    [Push, Bind(Building)] + TexturePush(FacadeTextureTurn) + SideFacades()
    + TexturePush(Scale(Vec3(1.0, 5.0, 1.0))) + FrontFacade() + BuildingsClose()
  }

  lemma SideFacadesEffect(s: State)
    requires s.mode == ModelView
    ensures Run(s, SideFacades()) == s.(modelView := s.modelView.(top :=
      Times(Times(Times(s.modelView.top, Scale(Vec3(50.0, 50.0, 50.0))), Translate(Vec3(-10.0, 10.1, 0.0))), Translate(Vec3(20.0, 0.0, 0.0)))))
  {
    var a := [Multiply(Scale(Vec3(50.0, 50.0, 50.0))), Multiply(Translate(Vec3(-10.0, 10.1, 0.0)))];
    var b := SingleBuilding();
    var c := [Multiply(Translate(Vec3(20.0, 0.0, 0.0)))];
    var s1 := Run(s, a);
    assert s1 == s.(modelView := s.modelView.(top :=
      Times(Times(s.modelView.top, Scale(Vec3(50.0, 50.0, 50.0))), Translate(Vec3(-10.0, 10.1, 0.0)))));
    SingleBuildingRestores(s1);
    var s2 := Run(s1, c);
    assert s2 == s1.(modelView := s1.modelView.(top := Times(s1.modelView.top, Translate(Vec3(20.0, 0.0, 0.0)))));
    SingleBuildingRestores(s2);
    assert Run(s2, [Bind(Brick)]) == s2;
    RunAppend(s, a + b + c + b, [Bind(Brick)]);
    RunAppend(s, a + b + c, b);
    RunAppend(s, a + b, c);
    RunAppend(s, a, b);
  }

  lemma FrontFacadeEffect(s: State)
    requires s.mode == ModelView
    ensures Run(s, FrontFacade()) == s.(modelView := s.modelView.(top :=
      Times(Times(Times(s.modelView.top, Translate(Vec3(-10.0, 0.0, -21.0))), RotateEuler(Vec3(0.0, 90.0, 0.0))), Scale(Vec3(1.0, 1.0, 4.0)))))
  {
    var a := [Multiply(Translate(Vec3(-10.0, 0.0, -21.0))), Multiply(RotateEuler(Vec3(0.0, 90.0, 0.0))), Multiply(Scale(Vec3(1.0, 1.0, 4.0)))];
    assert FrontFacade() == a + SingleBuilding();
    RunLocal(s, a);
    SingleBuildingRestores(Run(s, a));
    RunAppend(s, a, SingleBuilding());
  }

  /** The model-view matrix the side facades leave on top of m. */
  function SideFacadesTop(m: Matrix): Matrix {
    Times(Times(Times(m, Scale(Vec3(50.0, 50.0, 50.0))), Translate(Vec3(-10.0, 10.1, 0.0))), Translate(Vec3(20.0, 0.0, 0.0)))
  }

  /** Up to the brick texture's bind: one model-view push and one texture
      push, each holding its stack's moved or turned matrix. */
  lemma BuildingsOpenEffect(s: State)
    requires s.mode == ModelView
    ensures Run(s, [Push, Bind(Building)] + TexturePush(FacadeTextureTurn) + SideFacades())
      == s.(modelView := Pushed(SideFacadesTop(s.modelView.top), s.modelView),
            texture := Pushed(Times(s.texture.top, FacadeTextureTurn), s.texture))
  {
    var a := [Push, Bind(Building)];
    var b := TexturePush(FacadeTextureTurn);
    var s1 := Run(s, a);
    assert s1 == s.(modelView := Pushed(s.modelView.top, s.modelView));
    TexturePushEffect(s1, FacadeTextureTurn);
    SideFacadesEffect(Run(s1, b));
    RunAppend(s, a + b, SideFacades());
    RunAppend(s, a, b);
  }

  /** The texture stack is pushed twice and popped once: drawing the
      buildings restores the model-view and projection stacks but leaves one
      more entry on the texture stack, holding the rotated texture matrix. */
  lemma BuildingsEffect(s: State)
    requires s.mode == ModelView
    ensures Run(s, Buildings()) == s.(texture := Pushed(Times(s.texture.top, FacadeTextureTurn), s.texture))
    ensures Depth(Run(s, Buildings()).texture) == Depth(s.texture) + 1
  {
    var opening := [Push, Bind(Building)] + TexturePush(FacadeTextureTurn) + SideFacades();
    var d := TexturePush(Scale(Vec3(1.0, 5.0, 1.0)));
    var e := FrontFacade();
    BuildingsOpenEffect(s);
    var s3 := Run(s, opening);
    TexturePushEffect(s3, Scale(Vec3(1.0, 5.0, 1.0)));
    var s4 := Run(s3, d);
    FrontFacadeEffect(s4);
    var s5 := Run(s4, e);
    assert s5.texture.below == s3.texture && s5.modelView.below == s.modelView;
    assert Run(s5, BuildingsClose()) == s.(texture := s3.texture);
    assert Buildings() == opening + d + e + BuildingsClose();
    RunAppend(s, opening + d + e, BuildingsClose());
    RunAppend(s, opening + d, e);
    RunAppend(s, opening, d);
  }

  // ---------------------------------------------------------------------
  // DrawModels (World.cs:734-765)

  function ModelsBase(): seq<Token> {
    [Push, Multiply(Scale(Vec3(40.0, 40.0, 40.0))), Multiply(Translate(Vec3(4.9, -2.4, -2.0)))]
  }

  /** The model placed at the lamppost, between its own push and pop (743-751). */
  function SecondaryPlacement(): seq<Token> {
    [Push, Multiply(RotateEuler(Vec3(-90.0, 0.0, 0.0))), Multiply(Scale(Vec3(0.018, 0.018, 0.018))), Render(SecondaryModel), Pop]
  }

  /** The bike: moved to its animated position, scaled by the uniform
      selection and turned by its animated rotation (753-760). */
  function BikeMoves(b: Animation.Bike, sc: Scaling.Scales): seq<Token> {
    var u := sc.uniformFactor;
    [ Multiply(Translate(Vec3(b.x, -0.7, b.z))), Multiply(Scale(Vec3(u, u, u))),
      Multiply(RotateEuler(Vec3(0.0, b.rotation, 0.0))), Multiply(Scale(Vec3(0.5, 0.5, 0.5))) ]
  }

  function Models(b: Animation.Bike, sc: Scaling.Scales): seq<Token> {
    ModelsBase() + SecondaryPlacement() + BikeMoves(b, sc) + [Render(PrimaryModel), Pop]
  }

  /** The model-view matrix the bike is drawn with, on top of a model-view
      matrix m: the bike's position, the uniform scale and its rotation are
      exactly the animation and selection state. */
  function BikeMatrix(m: Matrix, b: Animation.Bike, sc: Scaling.Scales): Matrix {
    var u := sc.uniformFactor;
    var base := Times(Times(m, Scale(Vec3(40.0, 40.0, 40.0))), Translate(Vec3(4.9, -2.4, -2.0)));
    Times(Times(Times(Times(base, Translate(Vec3(b.x, -0.7, b.z))), Scale(Vec3(u, u, u))),
          RotateEuler(Vec3(0.0, b.rotation, 0.0))), Scale(Vec3(0.5, 0.5, 0.5)))
  }

  /** The bike's moves only multiply onto the model-view matrix. */
  lemma BikeMovesEffect(s: State, b: Animation.Bike, sc: Scaling.Scales)
    requires s.mode == ModelView
    ensures Run(s, BikeMoves(b, sc)) == s.(modelView := s.modelView.(top :=
      Times(Times(Times(Times(s.modelView.top, Translate(Vec3(b.x, -0.7, b.z))), Scale(Vec3(sc.uniformFactor, sc.uniformFactor, sc.uniformFactor))),
            RotateEuler(Vec3(0.0, b.rotation, 0.0))), Scale(Vec3(0.5, 0.5, 0.5)))))
    ensures Renders(s, BikeMoves(b, sc)) == []
  {
    var p := BikeMoves(b, sc);
    var p0, p1, p2, p3 := [p[0]], [p[1]], [p[2]], [p[3]];
    assert p == p0 + p1 + p2 + p3;
    RunAppend(s, p0 + p1 + p2, p3);
    RunAppend(s, p0 + p1, p2);
    RunAppend(s, p0, p1);
    LocalNoRenders(s, p);
  }

  /** The secondary model is placed on the scaled and moved matrix and
      rendered, after which one model-view entry is pushed over the old
      stack. */
  lemma ModelsOpenEffect(s: State)
    requires s.mode == ModelView
    ensures Run(s, ModelsBase() + SecondaryPlacement())
      == s.(modelView := Pushed(Times(Times(s.modelView.top, Scale(Vec3(40.0, 40.0, 40.0))), Translate(Vec3(4.9, -2.4, -2.0))), s.modelView))
    ensures |Renders(s, ModelsBase() + SecondaryPlacement())| == 1
    ensures Renders(s, ModelsBase() + SecondaryPlacement())[0].shape == SecondaryModel
  {
    var a := ModelsBase();
    var c := SecondaryPlacement();
    var s1 := Run(s, a);
    assert s1 == s.(modelView := Pushed(Times(Times(s.modelView.top, Scale(Vec3(40.0, 40.0, 40.0))), Translate(Vec3(4.9, -2.4, -2.0))), s.modelView));
    var inner := [Multiply(RotateEuler(Vec3(-90.0, 0.0, 0.0))), Multiply(Scale(Vec3(0.018, 0.018, 0.018))), Render(SecondaryModel)];
    assert c == [Push] + inner + [Pop];
    BracketRestores(s1, inner);
    RunAppend(s, a, c);
    LocalNoRenders(s, a);
    RendersAppend(s, a, c);
    SecondaryPlacementRenders(s1);
  }

  lemma SecondaryPlacementRenders(s: State)
    ensures |Renders(s, SecondaryPlacement())| == 1 && Renders(s, SecondaryPlacement())[0].shape == SecondaryModel
  {
    var moves := [Push, Multiply(RotateEuler(Vec3(-90.0, 0.0, 0.0))), Multiply(Scale(Vec3(0.018, 0.018, 0.018)))];
    var rest := [Render(SecondaryModel), Pop];
    assert SecondaryPlacement() == moves + rest;
    LocalNoRenders(s, moves);
    RendersAppend(s, moves, rest);
  }

  /** The bike's moves and its render, then the pop. */
  function BikeDraw(b: Animation.Bike, sc: Scaling.Scales): seq<Token> {
    BikeMoves(b, sc) + [Render(PrimaryModel), Pop]
  }

  lemma BikeDrawEffect(s: State, b: Animation.Bike, sc: Scaling.Scales)
    requires s.mode == ModelView && s.modelView.Pushed?
    ensures Run(s, BikeDraw(b, sc)) == s.(modelView := s.modelView.below)
    ensures Renders(s, BikeDraw(b, sc)) == [Snapshot(PrimaryModel,
      Times(Times(Times(Times(s.modelView.top, Translate(Vec3(b.x, -0.7, b.z))), Scale(Vec3(sc.uniformFactor, sc.uniformFactor, sc.uniformFactor))),
            RotateEuler(Vec3(0.0, b.rotation, 0.0))), Scale(Vec3(0.5, 0.5, 0.5))),
      s.projection.top, s.texture.top)]
  {
    var p := BikeMoves(b, sc);
    var z := [Render(PrimaryModel), Pop];
    BikeMovesEffect(s, b, sc);
    RunAppend(s, p, z);
    RendersAppend(s, p, z);
  }

  /** Drawing the models leaves every stack as it found it. */
  lemma ModelsRestore(s: State, b: Animation.Bike, sc: Scaling.Scales)
    requires s.mode == ModelView
    ensures Run(s, Models(b, sc)) == s
  {
    var open := ModelsBase() + SecondaryPlacement();
    assert Models(b, sc) == open + BikeDraw(b, sc);
    ModelsOpenEffect(s);
    BikeDrawEffect(Run(s, open), b, sc);
    RunAppend(s, open, BikeDraw(b, sc));
  }

  /** The models are rendered in order, the bike at its animated position
      under the projection and texture matrices the routine started with. */
  lemma ModelsRenders(s: State, b: Animation.Bike, sc: Scaling.Scales)
    requires s.mode == ModelView
    ensures var r := Renders(s, Models(b, sc));
            |r| == 2 && r[0].shape == SecondaryModel && r[1].shape == PrimaryModel
            && r[1].modelView == BikeMatrix(s.modelView.top, b, sc)
            && r[1].projection == s.projection.top && r[1].texture == s.texture.top
  {
    var open := ModelsBase() + SecondaryPlacement();
    assert Models(b, sc) == open + BikeDraw(b, sc);
    ModelsOpenEffect(s);
    BikeDrawEffect(Run(s, open), b, sc);
    RendersAppend(s, open, BikeDraw(b, sc));
  }

  /** A list with no render command renders nothing. */
  lemma {:induction false} LocalNoRenders(s: State, ts: seq<Token>)
    requires forall i | 0 <= i < |ts| :: !ts[i].Render?
    ensures Renders(s, ts) == []
    decreases |ts|
  {
    if |ts| > 0 {
      assert forall i | 0 <= i < |ts[1..]| :: !ts[1..][i].Render? by {
        forall i | 0 <= i < |ts[1..]| ensures !ts[1..][i].Render? {
          assert ts[1..][i] == ts[i + 1];
        }
      }
      LocalNoRenders(Step(s, ts[0]), ts[1..]);
    }
  }

  // ---------------------------------------------------------------------
  // DrawSurface (World.cs:767-824)

  /** The ground: moved down and scaled, textured with asphalt and drawn
      (769-789). */
  function Ground(): seq<Token> {
    [Push, Multiply(Translate(Vec3(0.0, -100.0, 0.0))), Multiply(Scale(Vec3(50.0, 50.0, 50.0))), Bind(Asphalt), Render(GroundQuad)]
  }

  /** The road: lifted and pushed; the texture matrix reset, pushed and
      stretched; then textured and drawn (791-815). */
  function RoadStrip(): seq<Token> {
    [Multiply(Translate(Vec3(0.0, 0.01, 0.0))), Push]
    + [Mode(Texture), LoadIdentity, Push, Multiply(Scale(Vec3(1.0, 10.0, 1.0))), Mode(ModelView)]
    + [Bind(Road), Render(RoadQuad)]
  }

  /** One texture-stack pop and two model-view pops (817-823). */
  function SurfaceClose(): seq<Token> {
    [Mode(Texture), Pop, Mode(ModelView), Pop, Pop]
  }

  function Surface(): seq<Token> {
    Ground() + RoadStrip() + SurfaceClose()
  }

  lemma GroundEffect(s: State)
    requires s.mode == ModelView
    ensures Run(s, Ground()) == s.(modelView :=
      Pushed(Times(Times(s.modelView.top, Translate(Vec3(0.0, -100.0, 0.0))), Scale(Vec3(50.0, 50.0, 50.0))), s.modelView))
  {
    var a := [Multiply(Translate(Vec3(0.0, -100.0, 0.0))), Multiply(Scale(Vec3(50.0, 50.0, 50.0))), Bind(Asphalt), Render(GroundQuad)];
    assert Ground() == [Push] + a;
    RunAppend(s, [Push], a);
    RunLocal(Run(s, [Push]), a);
  }

  /** The road leaves two copies of the lifted matrix on the model-view
      stack, and the stretch on a texture stack whose old top was reset. */
  lemma RoadStripEffect(s: State)
    requires s.mode == ModelView
    ensures var lifted := Times(s.modelView.top, Translate(Vec3(0.0, 0.01, 0.0)));
            Run(s, RoadStrip()) == s.(modelView := Pushed(lifted, s.modelView.(top := lifted)),
                                      texture := Pushed(Times(Identity, Scale(Vec3(1.0, 10.0, 1.0))), s.texture.(top := Identity)))
  {
    var a := [Multiply(Translate(Vec3(0.0, 0.01, 0.0))), Push];
    var b := [Mode(Texture), LoadIdentity, Push, Multiply(Scale(Vec3(1.0, 10.0, 1.0))), Mode(ModelView)];
    var c := [Bind(Road), Render(RoadQuad)];
    var s1 := Run(s, a);
    var s2 := Run(s1, b);
    assert Run(s2, c) == s2;
    RunAppend(s, a + b, c);
    RunAppend(s, a, b);
  }

  lemma SurfaceCloseEffect(s: State, mv: Stack, m: Matrix, t: Matrix, below: Stack)
    requires s.mode == ModelView && s.modelView == Pushed(m, Pushed(m, mv)) && s.texture == Pushed(t, below)
    ensures Run(s, SurfaceClose()) == s.(modelView := mv, texture := below)
  {
  }

  /** Drawing the ground restores the model-view and projection stacks and
      leaves the texture stack's depth alone, but its top is left loaded
      with the identity. */
  lemma SurfaceEffect(s: State)
    requires s.mode == ModelView
    ensures Run(s, Surface()) == s.(texture := s.texture.(top := Identity))
  {
    GroundEffect(s);
    var s1 := Run(s, Ground());
    RoadStripEffect(s1);
    var s2 := Run(s1, RoadStrip());
    var lifted := Times(s1.modelView.top, Translate(Vec3(0.0, 0.01, 0.0)));
    SurfaceCloseEffect(s2, s.modelView, lifted, Times(Identity, Scale(Vec3(1.0, 10.0, 1.0))), s.texture.(top := Identity));
    RunAppend(s, Ground() + RoadStrip(), SurfaceClose());
    RunAppend(s, Ground(), RoadStrip());
  }

  // ---------------------------------------------------------------------
  // DrawText (World.cs:687-732) and Resize (827-838)

  /** The perspective projection of the scene for a control of the given
      size: 60 degrees, the control's aspect ratio, depth 0.5 to 20000. */
  function ViewProjection(width: int, height: int): Factor {
    Perspective(60.0, AspectOf(width, height), 0.5, 20000.0)
  }

  /** The orthographic projection, pushed and popped again before anything
      is drawn with it (690-695). */
  function OrthoDetour(width: int, height: int): seq<Token> {
    [Mode(Projection), LoadIdentity, Push] + [Multiply(Ortho2D(0.0, width as real, 0.0, height as real))] + [Pop]
  }

  /** The text lines, in the order they are drawn (704-722). */
  const TextLines: seq<string> := [
    "Predmet: Racunarska grafika",
    "______________________",
    "Sk.god: 2019 / 20",
    "________________",
    "Ime: Aleksandar",
    "______________",
    "Prezime: Petakovic",
    "_________________",
    "Sifra zad: 12.2",
    "____________"
  ]

  /** The move from each line to the next (705-721). */
  const LineGaps: seq<Vec3> := [
    Vec3(-12.0, -0.3, 0.0), Vec3(-11.5, -1.3, 0.0), Vec3(-7.6, -0.35, 0.0),
    Vec3(-8.3, -1.3, 0.0), Vec3(-7.0, -0.35, 0.0), Vec3(-7.1, -1.3, 0.0),
    Vec3(-8.0, -0.35, 0.0), Vec3(-8.9, -1.3, 0.0), Vec3(-6.0, -0.35, 0.0)
  ]

  /** Each line rendered, followed by the move to the next; the last line
      by nothing. */
  function Lines(lines: seq<string>, gaps: seq<Vec3>): seq<Token>
    requires |lines| == |gaps| + 1
    decreases |gaps|
  {
    [Render(Text(lines[0]))]
    + if |gaps| == 0 then [] else [Multiply(Translate(gaps[0]))] + Lines(lines[1..], gaps[1..])
  }

  /** The text block: scaled and moved, then the lines (701-722). */
  function TextBlock(lines: seq<string>, gaps: seq<Vec3>): seq<Token>
    requires |lines| == |gaps| + 1
  {
    [Multiply(Scale(Vec3(0.03, 0.03, 0.03))), Multiply(Translate(Vec3(20.0, -25.0, 0.0)))] + Lines(lines, gaps)
  }

  lemma {:induction false} LinesLocal(lines: seq<string>, gaps: seq<Vec3>)
    requires |lines| == |gaps| + 1
    ensures forall i | 0 <= i < |Lines(lines, gaps)| :: Local(Lines(lines, gaps)[i])
    decreases |gaps|
  {
    if |gaps| > 0 {
      var rest := Lines(lines[1..], gaps[1..]);
      LinesLocal(lines[1..], gaps[1..]);
      var head := [Render(Text(lines[0])), Multiply(Translate(gaps[0]))];
      assert Lines(lines, gaps) == head + rest;
      forall i | 0 <= i < |Lines(lines, gaps)| ensures Local(Lines(lines, gaps)[i]) {
        if i >= 2 {
          assert Lines(lines, gaps)[i] == rest[i - 2];
        }
      }
    }
  }

  /** The lines render exactly the given strings, in order. */
  lemma {:induction false} LinesRender(s: State, lines: seq<string>, gaps: seq<Vec3>)
    requires |lines| == |gaps| + 1
    ensures |Renders(s, Lines(lines, gaps))| == |lines|
    ensures forall i | 0 <= i < |lines| :: Renders(s, Lines(lines, gaps))[i].shape == Text(lines[i])
    decreases |gaps|
  {
    var first := [Render(Text(lines[0]))];
    if |gaps| == 0 {
      assert Lines(lines, gaps) == first;
    } else {
      var gap := [Multiply(Translate(gaps[0]))];
      var rest := Lines(lines[1..], gaps[1..]);
      assert Lines(lines, gaps) == first + (gap + rest);
      RendersAppend(s, first, gap + rest);
      var s1 := Run(s, first);
      RendersAppend(s1, gap, rest);
      LinesRender(Run(s1, gap), lines[1..], gaps[1..]);
      forall i | 1 <= i < |lines| ensures Renders(s, Lines(lines, gaps))[i].shape == Text(lines[i]) {
        assert lines[1..][i - 1] == lines[i];
      }
    }
  }

  lemma TextBlockLocal(lines: seq<string>, gaps: seq<Vec3>)
    requires |lines| == |gaps| + 1
    ensures forall i | 0 <= i < |TextBlock(lines, gaps)| :: Local(TextBlock(lines, gaps)[i])
  {
    LinesLocal(lines, gaps);
    forall i | 0 <= i < |TextBlock(lines, gaps)| ensures Local(TextBlock(lines, gaps)[i]) {
      if i >= 2 {
        assert TextBlock(lines, gaps)[i] == Lines(lines, gaps)[i - 2];
      }
    }
  }

  /** The pop of the text block and the scene's projection restored
      (724-730). */
  function TextClose(width: int, height: int): seq<Token> {
    [Pop, Mode(Projection), LoadIdentity] + [Multiply(ViewProjection(width, height))] + [Mode(ModelView), LoadIdentity]
  }

  /** The opening of DrawText: the detour through the orthographic
      projection, then model-view reset and pushed (690-699). */
  function TextOpening(width: int, height: int): seq<Token> {
    OrthoDetour(width, height) + [Mode(ModelView), LoadIdentity, Push]
  }

  /** DrawText with the given block between its opening and its close. */
  function TextAround(width: int, height: int, block: seq<Token>): seq<Token> {
    TextOpening(width, height) + block + TextClose(width, height)
  }

  function TextTrace(width: int, height: int): seq<Token> {
    TextAround(width, height, TextBlock(TextLines, LineGaps))
  }

  /** Resize's matrix commands (833-837). */
  function ResizeTrace(width: int, height: int): seq<Token> {
    [Mode(Projection), LoadIdentity] + [Multiply(ViewProjection(width, height))] + [Mode(ModelView), LoadIdentity]
  }

  /** Resize, from any mode, leaves model-view current and loaded with the
      identity, and the scene's perspective projection on the projection
      stack; the depths of all stacks are unchanged. */
  lemma ResizeEffect(s: State, width: int, height: int)
    ensures Run(s, ResizeTrace(width, height))
      == s.(mode := ModelView,
            modelView := s.modelView.(top := Identity),
            projection := s.projection.(top := Times(Identity, ViewProjection(width, height))))
  {
    var a := [Mode(Projection), LoadIdentity];
    var b := [Multiply(ViewProjection(width, height))];
    RunAppend(s, a + b, [Mode(ModelView), LoadIdentity]);
    RunAppend(s, a, b);
  }

  /** After the opening, the orthographic projection is gone again and the
      text block's model-view entry is pushed over an identity. */
  lemma TextOpeningEffect(s: State, width: int, height: int)
    ensures Run(s, TextOpening(width, height))
      == s.(mode := ModelView,
            modelView := Pushed(Identity, s.modelView.(top := Identity)),
            projection := s.projection.(top := Identity))
    ensures Renders(s, TextOpening(width, height)) == []
  {
    var a := [Mode(Projection), LoadIdentity, Push];
    var b := [Multiply(Ortho2D(0.0, width as real, 0.0, height as real))];
    RunAppend(s, OrthoDetour(width, height), [Mode(ModelView), LoadIdentity, Push]);
    RunAppend(s, a + b, [Pop]);
    RunAppend(s, a, b);
    LocalNoRenders(s, TextOpening(width, height));
  }

  /** Whatever local commands the text block holds, DrawText ends in
      exactly the state Resize leaves, from any state: the block is popped,
      and the projection is reloaded with the scene's perspective. */
  lemma AroundMatchesResize(s: State, width: int, height: int, block: seq<Token>)
    requires forall i | 0 <= i < |block| :: Local(block[i])
    ensures Run(s, TextAround(width, height, block)) == Run(s, ResizeTrace(width, height))
  {
    var opening := TextOpening(width, height);
    TextOpeningEffect(s, width, height);
    var s1 := Run(s, opening);
    RunLocal(s1, block);
    var s2 := Run(s1, block);
    assert s2.modelView.below == s.modelView.(top := Identity);
    var a := [Pop, Mode(Projection), LoadIdentity];
    var b := [Multiply(ViewProjection(width, height))];
    RunAppend(s2, a + b, [Mode(ModelView), LoadIdentity]);
    RunAppend(s2, a, b);
    RunAppend(s, opening + block, TextClose(width, height));
    RunAppend(s, opening, block);
    ResizeEffect(s, width, height);
  }

  lemma TextMatchesResize(s: State, width: int, height: int)
    ensures Run(s, TextTrace(width, height)) == Run(s, ResizeTrace(width, height))
  {
    TextBlockLocal(TextLines, LineGaps);
    AroundMatchesResize(s, width, height, TextBlock(TextLines, LineGaps));
  }

  /** Every line of a text block is rendered, in order, and under the
      identity projection: the orthographic projection has already been
      popped when the block runs. */
  lemma TextBlockUnderIdentity(s: State, width: int, height: int, lines: seq<string>, gaps: seq<Vec3>)
    requires |lines| == |gaps| + 1
    ensures var r := Renders(s, TextAround(width, height, TextBlock(lines, gaps)));
            |r| == |lines|
            && (forall k | 0 <= k < |r| :: r[k].shape == Text(lines[k]) && r[k].projection == Identity)
  {
    var opening := TextOpening(width, height);
    var block := TextBlock(lines, gaps);
    TextOpeningEffect(s, width, height);
    var s1 := Run(s, opening);
    TextBlockLocal(lines, gaps);
    RendersAppend(s, opening + block, TextClose(width, height));
    RendersAppend(s, opening, block);
    RunAppend(s, opening, block);
    LocalNoRenders(Run(s1, block), TextClose(width, height));
    LocalRendersKeepProjection(s1, block);
    var scaling := [Multiply(Scale(Vec3(0.03, 0.03, 0.03))), Multiply(Translate(Vec3(20.0, -25.0, 0.0)))];
    RendersAppend(s1, scaling, Lines(lines, gaps));
    LocalNoRenders(s1, scaling);
    LinesRender(Run(s1, scaling), lines, gaps);
  }

  /** The ten lines of DrawText are drawn in order under the identity
      projection. */
  lemma TextDrawnUnderIdentityProjection(s: State, width: int, height: int)
    ensures var r := Renders(s, TextTrace(width, height));
            |r| == |TextLines|
            && (forall k | 0 <= k < |r| :: r[k].shape == Text(TextLines[k]) && r[k].projection == Identity)
  {
    TextBlockUnderIdentity(s, width, height, TextLines, LineGaps);
  }

  // ---------------------------------------------------------------------
  // Draw (World.cs:519-563)

  /** The camera: the fixed look-at, then the distance and the two
      rotations the keyboard controls (522-530). */
  function CameraPlacement(pitch: real, yaw: real, distance: real): seq<Token> {
    [ Multiply(LookAt(Vec3(90.0, 80.0, 0.0), Vec3(90.0, 80.0, -1.0), Vec3(0.0, 1.0, 0.0))),
      Multiply(Translate(Vec3(0.0, 0.0, -distance))),
      Multiply(Rotate(pitch, Vec3(1.0, 0.0, 0.0))),
      Multiply(Rotate(yaw, Vec3(0.0, 1.0, 0.0))) ]
  }

  /** One frame: the camera and the five draw routines in order (520-547). */
  function Frame(pitch: real, yaw: real, distance: real, sc: Scaling.Scales, b: Animation.Bike, width: int, height: int): seq<Token> {
    Concat([CameraPlacement(pitch, yaw, distance)] + FrameRest(sc, b, width, height))
  }

  /** The five draw routines after the camera, in order. */
  function FrameRest(sc: Scaling.Scales, b: Animation.Bike, width: int, height: int): seq<seq<Token>> {
    [Surface()] + ([Buildings()] + FrameEnd(sc, b, width, height))
  }

  function FrameEnd(sc: Scaling.Scales, b: Animation.Bike, width: int, height: int): seq<seq<Token>> {
    [Lights(sc)] + ([Models(b, sc)] + ([TextTrace(width, height)] + []))
  }

  /** The state a frame leaves: whatever the camera, the selections and the
      bike, model-view is current and the identity, the projection is the
      scene's perspective, and the texture stack has grown by one entry
      holding the buildings' rotated texture matrix over an identity. */
  lemma FrameEffect(s: State, pitch: real, yaw: real, distance: real, sc: Scaling.Scales, b: Animation.Bike, width: int, height: int)
    requires s.mode == ModelView
    ensures Run(s, Frame(pitch, yaw, distance, sc, b, width, height))
      == s.(modelView := s.modelView.(top := Identity),
            projection := s.projection.(top := Times(Identity, ViewProjection(width, height))),
            texture := Pushed(Times(Identity, RotateEuler(Vec3(0.0, 0.0, -90.0))), s.texture.(top := Identity)))
  {
    var cam := CameraPlacement(pitch, yaw, distance);
    RunConcat(s, cam, FrameRest(sc, b, width, height));
    CameraEffect(s, pitch, yaw, distance);
    var s1 := Run(s, cam);
    FrameRestEffect(s1, sc, b, width, height);
    assert s1.modelView.(top := Identity) == s.modelView.(top := Identity);
  }

  /** The camera only multiplies onto the model-view matrix. */
  lemma CameraEffect(s: State, pitch: real, yaw: real, distance: real)
    requires s.mode == ModelView
    ensures Run(s, CameraPlacement(pitch, yaw, distance))
      == s.(modelView := s.modelView.(top := TopAfter(s.modelView.top, CameraPlacement(pitch, yaw, distance))))
  {
    RunLocal(s, CameraPlacement(pitch, yaw, distance));
  }

  /** Everything after the camera: the surface resets the texture top, the
      buildings push the turned texture matrix, the lampposts and the models
      restore the stacks, and the text ends as Resize does. */
  lemma FrameRestEffect(s: State, sc: Scaling.Scales, b: Animation.Bike, width: int, height: int)
    requires s.mode == ModelView
    ensures Run(s, Concat(FrameRest(sc, b, width, height)))
      == s.(modelView := s.modelView.(top := Identity),
            projection := s.projection.(top := Times(Identity, ViewProjection(width, height))),
            texture := Pushed(Times(Identity, FacadeTextureTurn), s.texture.(top := Identity)))
  {
    SurfaceEffect(s);
    var s2 := Run(s, Surface());
    BuildingsEffect(s2);
    var s3 := Run(s2, Buildings());
    RunConcat(s, Surface(), [Buildings()] + FrameEnd(sc, b, width, height));
    RunConcat(s2, Buildings(), FrameEnd(sc, b, width, height));
    FrameEndEffect(s3, sc, b, width, height);
    ResizeEffect(s3, width, height);
  }

  /** The lampposts, the models and the text end as Resize does. */
  lemma FrameEndEffect(s: State, sc: Scaling.Scales, b: Animation.Bike, width: int, height: int)
    requires s.mode == ModelView
    ensures Run(s, Concat(FrameEnd(sc, b, width, height))) == Run(s, ResizeTrace(width, height))
  {
    LightsRestore(s, sc);
    ModelsRestore(s, b, sc);
    TextMatchesResize(s, width, height);
    RunConcat(s, Lights(sc), [Models(b, sc)] + ([TextTrace(width, height)] + []));
    RunConcat(s, Models(b, sc), [TextTrace(width, height)] + []);
    RunConcat(s, TextTrace(width, height), []);
  }

  /** Every frame leaves one more entry on the texture stack and none of
      the frame's pops underflows. */
  lemma FrameGrowsTextureStack(s: State, pitch: real, yaw: real, distance: real, sc: Scaling.Scales, b: Animation.Bike, width: int, height: int)
    requires s.mode == ModelView
    ensures var r := Run(s, Frame(pitch, yaw, distance, sc, b, width, height));
            && r.mode == ModelView
            && Depth(r.modelView) == Depth(s.modelView)
            && Depth(r.projection) == Depth(s.projection)
            && Depth(r.texture) == Depth(s.texture) + 1
            && r.underflows == s.underflows
  {
    FrameEffect(s, pitch, yaw, distance, sc, b, width, height);
    RetopKeepsDepth(s.texture, Identity);
    RetopKeepsDepth(s.modelView, Identity);
    RetopKeepsDepth(s.projection, Times(Identity, ViewProjection(width, height)));
  }
}

=== FILE: world.dfy ===
/** The World class of World.cs: its fields, its constructor, Initialize,
    the property setters, Draw, the animation tick, Resize and Dispose. The
    OpenGL context the world writes to is a separate record: it outlives the
    world, and a replacement world writes to the same context. */
module Scene {
  import Gl
  import Ambient
  import Scaling
  import Animation
  import DrawTraces

  /** An AssimpScene object, known only by its identity. */
  datatype Handle = Handle(id: nat)

  /** The rotations about X (pitch) and Y (yaw) and the scene distance. */
  datatype Camera = Camera(pitch: real, yaw: real, distance: real)

  /** The camera of a new world (World.cs:73-83). */
  const InitialCamera := Camera(0.0, 0.0, 900.0)

  /** The animation timer: not created yet (Initialize has not completed),
      stopped, or running. */
  datatype Timer = Absent | Stopped | Running

  datatype World = World(
    primary: Handle,            // m_scene, the animated model
    secondary: Handle,          // m_scene2, the model at the lamppost
    camera: Camera,
    ambient: Ambient.Rgba,      // ambient_light
    ambientColor: int,          // Ambient_Light, the raw enum value
    scales: Scaling.Scales,
    bike: Animation.Bike,
    run: bool,                  // m_startAnimation
    timer: Timer,
    width: int,
    height: int)

  /** The OpenGL state the model tracks: the matrix stacks and the ambient
      colour of light 0. */
  datatype GlContext = GlContext(matrices: Gl.State, light0Ambient: Ambient.Rgba)

  /** A fresh context; light 0's ambient colour is the pipeline's default,
      black with alpha 1. */
  const InitialContext := GlContext(Gl.Initial, Ambient.Rgba(0.0, 0.0, 0.0, 1.0))

  /** A world together with the context it draws into. */
  datatype Session = Session(world: World, gl: GlContext)

  /** The constructor (World.cs:370-378): the two scene objects and the
      control's size; every other field holds its initialiser. */
  function Construct(primary: Handle, secondary: Handle, width: int, height: int): World {
    World(primary, secondary, InitialCamera, Ambient.Initial, 0, Scaling.Initial, Animation.Start, false, Absent, width, height)
  }

  /** A new world shows the bike at the start, does not run, has no timer,
      and keeps the size it was given. */
  lemma ConstructInitial(primary: Handle, secondary: Handle, width: int, height: int)
    ensures var w := Construct(primary, secondary, width, height);
            && w.camera == InitialCamera && w.bike == Animation.Start && !w.run && w.timer == Absent
            && Ambient.InRange(w.ambient) && Animation.Inv(w.bike)
            && w.width == width && w.height == height
  {
  }

  /** Initialize (World.cs:395-420). The lighting setup writes the world's
      stored ambient array to light 0 (489); loading the two scenes comes
      after it and may fail, and only once both are loaded is the timer
      created, stopped. */
  function Initialize(ss: Session, scenesLoad: bool): (r: Session)
    ensures r.gl.light0Ambient == ss.world.ambient
    ensures r.gl.matrices == ss.gl.matrices
    ensures r.world == if scenesLoad then ss.world.(timer := Stopped) else ss.world
  {
    var lit := ss.(gl := ss.gl.(light0Ambient := ss.world.ambient));
    if scenesLoad then lit.(world := lit.world.(timer := Stopped)) else lit
  }

  /** The AmbientLightColorR/G/B getters. */
  function AmbientChannel(w: World, ch: Ambient.Channel): real {
    Ambient.Get(w.ambient, ch)
  }

  /** The AmbientLightColorR/G/B setters (World.cs:161-204): the channel is
      stored, wrapped, and the whole stored array is written to light 0. */
  function SetAmbientChannel(ss: Session, ch: Ambient.Channel, value: real): (r: Session)
    ensures AmbientChannel(r.world, ch) == Ambient.Wrap(value)
    ensures forall other: Ambient.Channel | other != ch :: AmbientChannel(r.world, other) == AmbientChannel(ss.world, other)
    ensures r.gl.light0Ambient == r.world.ambient
    ensures r.world == ss.world.(ambient := r.world.ambient)
    ensures r.gl.matrices == ss.gl.matrices
  {
    var stored := Ambient.SetChannel(ss.world.ambient, ch, value);
    Session(ss.world.(ambient := stored), ss.gl.(light0Ambient := stored))
  }

  /** The AmbientLightColor setter (World.cs:328-361): the enum value is
      stored and light 0 gets the palette's colour; the stored array, and
      so every channel getter, is left alone. */
  function SetAmbientColor(ss: Session, index: int): (r: Session)
    ensures r.gl.light0Ambient == Ambient.PaletteFor(index)
    ensures r.world == ss.world.(ambientColor := index)
    ensures forall ch: Ambient.Channel :: AmbientChannel(r.world, ch) == AmbientChannel(ss.world, ch)
    ensures r.gl.matrices == ss.gl.matrices
  {
    Session(ss.world.(ambientColor := index), ss.gl.(light0Ambient := Ambient.PaletteFor(index)))
  }

  /** After a palette choice, editing one channel does not edit the
      palette's colour: light 0 gets the stored array, which the palette
      never touched, with that one channel changed. */
  lemma ChannelEditDiscardsPalette(ss: Session, index: int, ch: Ambient.Channel, value: real)
    ensures var r := SetAmbientChannel(SetAmbientColor(ss, index), ch, value);
            r.gl.light0Ambient == Ambient.SetChannel(ss.world.ambient, ch, value)
  {
  }

  /** The LamppostVerticalScaling setter (World.cs:274-299). */
  function SetVerticalScaling(w: World, index: int): (r: World)
    ensures r == w.(scales := r.scales)
    ensures r.scales.vertical == index
    ensures Scaling.ChoiceOf(index).Some? ==> r.scales.verticalFactor == Scaling.Factor(Scaling.ChoiceOf(index).value)
    ensures Scaling.ChoiceOf(index).None? ==> r.scales.verticalFactor == w.scales.verticalFactor
    ensures r.scales.uniform == w.scales.uniform && r.scales.uniformFactor == w.scales.uniformFactor
  {
    w.(scales := Scaling.SetVertical(w.scales, index))
  }

  /** The MotorBikeAndLamppostUniformScaling setter (World.cs:301-326). */
  function SetUniformScaling(w: World, index: int): (r: World)
    ensures r == w.(scales := r.scales)
    ensures r.scales.uniform == index
    ensures Scaling.ChoiceOf(index).Some? ==> r.scales.uniformFactor == Scaling.Factor(Scaling.ChoiceOf(index).value)
    ensures Scaling.ChoiceOf(index).None? ==> r.scales.uniformFactor == w.scales.uniformFactor
    ensures r.scales.vertical == w.scales.vertical && r.scales.verticalFactor == w.scales.verticalFactor
  {
    w.(scales := Scaling.SetUniform(w.scales, index))
  }

  /** The commands one frame issues for a world. */
  function FrameOf(w: World): seq<Gl.Token> {
    DrawTraces.Frame(w.camera.pitch, w.camera.yaw, w.camera.distance, w.scales, w.bike, w.width, w.height)
  }

  /** What Draw leaves, and whether it ended in an exception. */
  datatype Drawn = Drawn(session: Session, threw: bool)

  /** What a frame leaves, run from model-view mode: model-view current and
      the identity, the projection the scene's perspective for the given
      size, and the texture stack one entry deeper, its new top the
      buildings' turned texture matrix over an identity; every other entry
      as it was, and no pop ignored. */
  predicate FrameLeft(m0: Gl.State, m: Gl.State, width: int, height: int) {
    && m.mode == Gl.ModelView
    && m.modelView == m0.modelView.(top := Gl.Identity)
    && m.projection == m0.projection.(top := Gl.Times(Gl.Identity, DrawTraces.ViewProjection(width, height)))
    && m.texture == Gl.Pushed(Gl.Times(Gl.Identity, DrawTraces.FacadeTextureTurn), m0.texture.(top := Gl.Identity))
    && Gl.Depth(m.modelView) == Gl.Depth(m0.modelView)
    && Gl.Depth(m.projection) == Gl.Depth(m0.projection)
    && Gl.Depth(m.texture) == Gl.Depth(m0.texture) + 1
    && m.underflows == m0.underflows
  }

  /** Draw (World.cs:519-563). The frame is drawn first. Then a world whose
      timer exists starts it when the run flag is set, and otherwise stops
      it and puts the bike back at the start. A world whose Initialize never
      completed has no timer: the call on it throws before any field
      changes. */
  function Draw(ss: Session): (r: Drawn)
    ensures ss.gl.matrices.mode == Gl.ModelView ==>
              FrameLeft(ss.gl.matrices, r.session.gl.matrices, ss.world.width, ss.world.height)
    ensures r.session.gl.light0Ambient == ss.gl.light0Ambient
    ensures r.threw <==> ss.world.timer == Absent
    ensures r.threw ==> r.session.world == ss.world
    ensures !r.threw && ss.world.run ==> r.session.world == ss.world.(timer := Running)
    ensures !r.threw && !ss.world.run ==> r.session.world == ss.world.(timer := Stopped, bike := Animation.Start)
  {
    var w := ss.world;
    var m0 := ss.gl.matrices;
    var after := Gl.Run(m0, FrameOf(w));
    assert m0.mode == Gl.ModelView ==> FrameLeft(m0, after, w.width, w.height) by {
      if m0.mode == Gl.ModelView {
        DrawTraces.FrameEffect(m0, w.camera.pitch, w.camera.yaw, w.camera.distance, w.scales, w.bike, w.width, w.height);
        DrawTraces.FrameGrowsTextureStack(m0, w.camera.pitch, w.camera.yaw, w.camera.distance, w.scales, w.bike, w.width, w.height);
      }
    }
    var drawn := ss.(gl := ss.gl.(matrices := after));
    if w.timer == Absent then Drawn(drawn, true)
    else if w.run then Drawn(drawn.(world := w.(timer := Running)), false)
    else Drawn(drawn.(world := w.(timer := Stopped, bike := Animation.Start)), false)
  }

  /** A draw with the flag off puts the bike back at the start whatever
      phase it was in, and a later tick finds the timer stopped. */
  lemma DrawStoppedResets(ss: Session)
    requires ss.world.timer != Absent && !ss.world.run
    ensures Draw(ss).session.world.bike == Animation.Start
    ensures Tick(Draw(ss).session.world) == Draw(ss).session.world
  {
  }

  /** One timer tick: UpdateAnimation runs only while the timer runs. */
  function Tick(w: World): (r: World)
    ensures w.timer == Running ==> r == w.(bike := Animation.Tick(w.bike))
    ensures w.timer != Running ==> r == w
  {
    if w.timer == Running then w.(bike := Animation.Tick(w.bike)) else w
  }

  /** Resize (World.cs:829-838): the size is stored and the projection
      reloaded for it. Model-view is left current and the identity, the
      projection's top becomes the scene's perspective for the new size, the
      entries below the tops and the texture stack are untouched, so no
      depth changes and no pop is ignored. */
  function Resize(ss: Session, width: int, height: int): (r: Session)
    ensures r.world == ss.world.(width := width, height := height)
    ensures var m0, m := ss.gl.matrices, r.gl.matrices;
            && m.mode == Gl.ModelView
            && m.modelView == m0.modelView.(top := Gl.Identity)
            && m.projection == m0.projection.(top := Gl.Times(Gl.Identity, DrawTraces.ViewProjection(width, height)))
            && m.texture == m0.texture
            && Gl.Depth(m.modelView) == Gl.Depth(m0.modelView)
            && Gl.Depth(m.projection) == Gl.Depth(m0.projection)
            && m.underflows == m0.underflows
    ensures r.gl.light0Ambient == ss.gl.light0Ambient
  {
    var m0 := ss.gl.matrices;
    DrawTraces.ResizeEffect(m0, width, height);
    Gl.RetopKeepsDepth(m0.modelView, Gl.Identity);
    Gl.RetopKeepsDepth(m0.projection, Gl.Times(Gl.Identity, DrawTraces.ViewProjection(width, height)));
    Session(ss.world.(width := width, height := height), ss.gl.(matrices := Gl.Run(m0, DrawTraces.ResizeTrace(width, height))))
  }

  /** After a resize, the next frame uses the projection Resize loaded: the
      frame's text pass reloads the same perspective for the stored size. */
  lemma DrawKeepsResizeProjection(ss: Session, width: int, height: int)
    requires ss.gl.matrices.mode == Gl.ModelView
    ensures var resized := Resize(ss, width, height);
            Draw(resized).session.gl.matrices.projection == resized.gl.matrices.projection
  {
    DrawTraces.ResizeEffect(ss.gl.matrices, width, height);
    var resized := Resize(ss, width, height);
    var w := resized.world;
    DrawTraces.FrameEffect(resized.gl.matrices, w.camera.pitch, w.camera.yaw, w.camera.distance, w.scales, w.bike, w.width, w.height);
  }

  /** The scene objects Dispose releases (World.cs:843-862): the primary
      one only. */
  function Dispose(w: World): (released: seq<Handle>)
    ensures w.primary in released
    ensures w.primary != w.secondary ==> w.secondary !in released
    ensures |released| == 1
  {
    [w.primary]
  }
}
